=== FILE: README.md ===
# Slideshow content block: a Dafny model

This project models the slideshow content type of the Blox WordPress plugin
(`Blox_Content_Slideshow`). A Blox content block can show one of these:

- the plugin's own "builtin" slideshow of media-library images;
- a slider from one of three third-party slider plugins (Soliloquy,
  Revolution Slider, Meta Slider);
- any other slider, through a shortcode.

The model covers:

- the registry of slideshow types the editor can choose from;
- the sanitizer that turns the posted admin form into the stored slideshow;
- the admin form's hidden slide fields and builtin settings fields, which
  post stored data back, with the `get_values` lookup of a setting or its
  site-wide default;
- the front-end printer that dispatches on the slideshow type;
- the slick renderer of the builtin slideshow and its script options;
- the older flexslider renderer, kept as a separate strategy;
- the display guards of the three third-party sliders.

Modules, in dependency order:

- `Php`: PHP values. Ordered arrays are key/value sequences, with `isset`,
  `empty`, string conversion and the loose comparisons the code uses.
- `Host`: the WordPress calls the block depends on, as caller-supplied
  functions. These are the escaping functions, the media lookups, the
  plugin-active test, the two filters and the option store.
- `Registry`: `get_slideshow_types`.
- `Shortcode`: the PCRE guard on a submitted shortcode, with a
  backtracking matcher proved equal to its declarative reading.
- `Stored`: the stored slideshow records.
- `Sanitize`: `save_slideshow_content`.
- `Form`: the slide and settings fields `get_slideshow_content` prints for stored data, and
  the round trips through the sanitizer.
- `View`: the link, caption and speed pieces both builtin renderers share.
- `Slick`: `print_slideshow_builtin_slick` and `print_slideshow_js`.
- `Flexslider`: `print_slideshow_builtin_flexslider`.
- `Dispatch`: `print_slideshow_content` and the three `display_slideshow_*`
  guards.
- `Pipeline`: properties that run from the posted form to what visitors see.

The escaping calls are left uninterpreted. Every property holds whatever
they do, except where a lemma states an assumption about them. Examples:
`esc_attr("1") == "1"`, or "re-escaping an escaped string changes nothing".

Four behaviours of the code are worth knowing when reading the model:

- **All slides disabled.** A block whose slides are all disabled still
  prints an empty slide container and still emits the slider's
  initialisation script. The slick renderer's test at line 675 looks at the
  stored collection, not at the visible slides
  (`Slick.AllDisabledStillInitialised`).
- **Disabled slides in flexslider.** The flexslider renderer ignores the
  disabled flag and prints every stored slide (`Flexslider.FlexRenderOf`).
- **A rejected shortcode.** When the posted shortcode fails the guard,
  `save_slideshow_content` leaves the `shortcode` key out of its result
  (`Sanitize.SavedShortcode`). Whether an earlier value survives depends on
  how the caller merges the result, and that code is not part of this model.
- **Third-party slider ids.** An id is saved for every registered type other
  than builtin and shortcode, posted or not; a missing one reads as ""
  (`Sanitize.SaveProviderIds`).

## Model

| member | source | states |
|---|---|---|
| Registry.SlideshowTypes | includes/global/content/slideshow.php:810-837 | whatever the type filter returns, "shortcode" is offered, titled "Shortcode" |
| Registry.ProviderIds | includes/global/content/slideshow.php:360-364 | the types that store a slider id are exactly the registered types other than builtin and shortcode |
| Registry.TypesInOrder | includes/global/content/slideshow.php:810-837 | when the filter only appends new types: builtin, then the active gated plugins in fixed order, then the added types, then shortcode |
| Registry.TypesOffered | includes/global/content/slideshow.php:812-834 | builtin is first, shortcode is last, and Soliloquy, Revolution or Meta Slider is offered exactly when its plugin is active |
| Registry.ProvidersOfTypes | includes/global/content/slideshow.php:360-364 | the id-storing types of the registry are the active gated plugins followed by the filter's additions |
| Registry.GatedMembership | includes/global/content/slideshow.php:815-828 | each gated type is present exactly when its plugin file is active |
| Shortcode.Match | includes/global/content/slideshow.php:367 | the backtracking run of `/(^[\[]).*([\]]$)/` accepts exactly the strings the pattern's declarative reading accepts |
| Shortcode.SingleLine | includes/global/content/slideshow.php:367 | on one line, the guard accepts exactly the strings that start with `[` and end with `]` |
| Shortcode.FinalLineFeed | includes/global/content/slideshow.php:367 | one trailing line feed after a single-line shortcode does not change the verdict |
| Shortcode.Bracketed | includes/global/content/slideshow.php:367 | an accepted string starts with `[` and ends with `]`, possibly followed by one line feed |
| Sanitize.LinkUrl | includes/global/content/slideshow.php:332 | an absent link URL and the "http://" placeholder store ""; any other URL is stored escaped |
| Sanitize.SanitizeImage | includes/global/content/slideshow.php:325-337 | a text field posted as a string is stored sanitized, a missing one as the sanitized empty string; an empty size stores "full", and any size is stored by the size rule; the link is the sanitized posted link, so its enable and target flags follow their boxes, and an absent or placeholder link URL stores "" |
| Sanitize.Size | includes/global/content/slideshow.php:329 | an empty image size stores "full"; otherwise the escaped size |
| Sanitize.SanitizeLink | includes/global/content/slideshow.php:331-334 | enable and target are set exactly when posted; a posted title is stored sanitized, an absent one as ""; the URL follows the link URL rule (an absent or placeholder URL stores "") |
| Sanitize.SanitizeSlide | includes/global/content/slideshow.php:321-337 | every saved slide is an image slide; its disable, link-enable and link-target flags are set exactly when their boxes were posted |
| Sanitize.SanitizeSlides | includes/global/content/slideshow.php:318-338 | the saved slides keep the posted keys in posted order, each holding its own posted slide, sanitized |
| Sanitize.SlideReadByKey | includes/global/content/slideshow.php:318-337 | reading a slide back by its key, as the loop does, gives the entry the loop is at, so the loop sanitizes each posted slide's own value |
| Sanitize.SavedSlides | includes/global/content/slideshow.php:317-341 | the '' marker exactly when no slides were posted; no slides key for an empty or non-array value; otherwise one slide per posted key |
| Sanitize.SanitizeSettings | includes/global/content/slideshow.php:344-356 | each of the eight checkbox settings is set exactly when posted; the speeds are the posted values read as non-negative integers; the animation is the posted text, attribute-escaped |
| Sanitize.SaveProviderIds | includes/global/content/slideshow.php:360-364 | one id per registered type other than builtin and shortcode, in registry order and for no other type, each read from that type's posted id |
| Sanitize.StoredProviderIds | includes/global/content/slideshow.php:360-364 | with the type filter only appending, ids are stored for the active gated plugins and then the added types |
| Sanitize.SavedShortcode | includes/global/content/slideshow.php:366-369 | a shortcode is stored exactly when the posted string passes the guard, and then it is stored verbatim and bracketed |
| Sanitize.SavedBuiltin | includes/global/content/slideshow.php:317-356 | from the posted array: the '' slide marker exactly when no slides were posted, no slides for an empty or non-array value, otherwise one slide per posted key, in order, each the sanitized reading of its posted fields; each checkbox setting set exactly when its field was posted; the speeds read as non-negative integers; the animation is the posted text, attribute-escaped |
| Sanitize.Save | includes/global/content/slideshow.php:310-372 | from the posted array: the builtin part as above; an id for exactly the registered types other than builtin and shortcode, each read from that type's posted id; a shortcode only when the posted string passed the guard, stored verbatim and starting with `[` |
| Form.LinkUrlRoundTrip | includes/global/content/slideshow.php:166 | an empty stored link URL is shown as "http://" and saved back as ""; any other URL except "http://" and "0" is escaped again |
| Form.SlideRoundTrip | includes/global/content/slideshow.php:157-172 | re-saving a saved slide without changes gives the same slide, for idempotent escaping and texts the form can show |
| Form.LinkTitleZeroLost | includes/global/content/slideshow.php:167 | a link title of "0" is shown empty, so re-saving loses it |
| Form.SettingsRoundTrip | includes/global/content/slideshow.php:200-248 | re-saving stored settings without changes gives the same settings when the animation is slide or fade and the speeds read back as stored |
| Form.FormFlags | includes/global/content/slideshow.php:232-246 | each settings checkbox of a stored block is ticked exactly when its setting is set |
| Form.FormTexts | includes/global/content/slideshow.php:221-228 | when the stored animation is slide or fade, the animation select and the two speed fields of a stored block read back as stored |
| Form.FormAnimation | includes/global/content/slideshow.php:221-224 | the animation select of a stored block posts "fade" exactly when the stored animation is fade; any other stored animation, which matches neither option, is posted back as "slide" |
| Form.FlagBox | includes/global/content/slideshow.php:289-297 | a setting stored as 1 or 0 is shown ticked exactly when it is 1 |
| Form.SpeedBox | includes/global/content/slideshow.php:289-297 | a stored speed is shown so that it reads back as the same number, with 0 shown as '' |
| Form.SettingsRebuilt | includes/global/content/slideshow.php:344-356 | sanitizing gives back stored settings once every posted field yields its stored value |
| Form.GetValues | includes/global/content/slideshow.php:289-297 | a block with stored settings reads a non-empty setting as stored and an empty one as ''; a block without stored settings reads the site-wide option |
| Form.NewBlockDefaults | includes/global/content/slideshow.php:289-297 | a new block's checkboxes take the site options: set exactly when the option is 1 or "1"; the animation is the escaped "fade" when the site option is "fade", otherwise the escaped "slide" |
| View.LinkOf | includes/global/content/slideshow.php:713-717 | a slide is wrapped in a link exactly when its URL is non-empty and the link is enabled; the target is "_blank" exactly when the target box is set, otherwise "_self" |
| View.CaptionOf | includes/global/content/slideshow.php:722-728 | a caption is printed exactly when captions are not disabled and the caption is non-empty, filtered through the post filter |
| View.SpeedOf | includes/global/content/slideshow.php:779-780 | a stored speed of 0 gives the renderer's default; any other is printed escaped |
| Slick.ParamsOf | includes/global/content/slideshow.php:773-781 | arrows and dots are on exactly when their "disable" settings are off; fade exactly when the animation is "fade"; the other switches follow their settings; zero speeds fall back to 7000 and 600 ms |
| Slick.PictureOf | includes/global/content/slideshow.php:682-706 | in background mode only the image source is used, otherwise the attachment tag with the escaped title and alt; an empty size means "full" |
| Slick.ViewOf | includes/global/content/slideshow.php:737-749 | a printed slide keeps its key, type and classes, has the link and caption rules above, and shows its image as a background exactly in background mode and otherwise as an image tag; the picture is the one `PictureOf` builds from the stored image |
| Slick.Shown | includes/global/content/slideshow.php:679-751 | the slide loop prints at most as many slides as are stored |
| Slick.ShownFromVisible | includes/global/content/slideshow.php:679-751 | every printed slide is the markup of a visible stored slide, under that slide's key |
| Slick.RenderOf | includes/global/content/slideshow.php:672-766 | the notice exactly when the stored slide collection is empty; otherwise the visible slides and the script options |
| Slick.ShownAppend | includes/global/content/slideshow.php:679-751 | the slide loop over a concatenation prints each part in turn, so stored order is kept |
| Slick.AllShown | includes/global/content/slideshow.php:731-750 | when no slide is disabled, every stored slide is printed, one for one, in order |
| Slick.NoneShown | includes/global/content/slideshow.php:731-750 | when every slide is disabled, none is printed |
| Slick.AllDisabledStillInitialised | includes/global/content/slideshow.php:675-757 | a non-empty collection of disabled slides gives an empty container and the slider is still initialised |
| Slick.Print | includes/global/content/slideshow.php:672-766 | the loop that appends each visible slide yields the notice exactly for an empty collection, and otherwise the same rendering as `RenderOf` |
| Flexslider.FlexParamsOf | includes/global/content/slideshow.php:640-648 | an empty animation becomes "fade"; the arrow and dot switches are inverted; the others pass through; zero speeds fall back to 7000 and 600 ms |
| Flexslider.FlexViewOf | includes/global/content/slideshow.php:605-629 | a printed slide keeps its key, type and classes, with the shared link and caption rules; its image source, alt and title are the stored URL, alt and title, attribute-escaped, or "" when the stored value is empty or "0" |
| Flexslider.FlexSlides | includes/global/content/slideshow.php:604-630 | every stored slide is printed, disabled ones included, one for one and in order |
| Flexslider.FlexRenderOf | includes/global/content/slideshow.php:597-660 | no slides are printed exactly when the stored collection is empty; otherwise all of them, with the flexslider options |
| Dispatch.DisplaySlider | includes/global/content/slideshow.php:891-902 | a third-party slider is embedded exactly when its id is neither empty nor "none" (the same guard sits at lines 960 and 1025) |
| Dispatch.Others | includes/global/content/slideshow.php:558-584 | builtin goes to slick exactly when slick is on and to flexslider otherwise; a third-party slider is embedded exactly when it is the chosen type, its plugin is active and a stored id is neither empty nor "none"; nothing else is printed |
| Dispatch.Route | includes/global/content/slideshow.php:546-585 | as written: a shortcode block embeds exactly when the block's top-level shortcode key is non-empty, and what it embeds is the slideshow's saved shortcode, or "" when none was saved; other types go to the other branches |
| Dispatch.CorrectedRoute | includes/global/content/slideshow.php:546-585 | a shortcode block embeds exactly when its saved shortcode is present and non-empty, and prints that shortcode |
| Dispatch.ShortcodeNeverShown | includes/global/content/slideshow.php:549-553 | with no top-level shortcode key nothing is printed, and with that key but no saved shortcode an empty embed is printed |
| Dispatch.ShortcodeExample | includes/global/content/slideshow.php:546-557 | a saved `[gallery]` prints nothing as written and is embedded once the test reads the printed key |
| Dispatch.BuiltinDispatch | includes/global/content/slideshow.php:558-564 | as written, the builtin type goes to slick unless the site turns slick off, and then to flexslider; the corrected route does the same |
| Dispatch.ThirdPartyGating | includes/global/content/slideshow.php:566-584 | as written, a third-party slider is embedded exactly when it is the chosen type, its plugin is active, an id was stored, and the id is neither empty nor "none"; the corrected route agrees |
| Dispatch.UnknownTypePrintsNothing | includes/global/content/slideshow.php:546-585 | a type other than the five known ones prints nothing, even if the type filter offered it |
| Pipeline.SavedSlideVisibility | includes/global/content/slideshow.php:323 | when `esc_attr` leaves "1" alone, a saved slide is shown exactly when its disable box was not posted |
| Pipeline.SavedSlideLink | includes/global/content/slideshow.php:331-334 | a saved slide is linked exactly when enable and a non-placeholder URL were posted and the URL escapes to a non-empty string; the new-window target is used exactly when the target box was posted |
| Pipeline.SavedParams | includes/global/content/slideshow.php:345-353 | the slick options follow the posted checkboxes, with the two "disable" boxes inverted; a speed that reads as 0 gives the default |
| Pipeline.SavedNoSlidesNotice | includes/global/content/slideshow.php:317-341 | the notice is printed exactly when no non-empty array of slides was posted |
| Pipeline.SavedSlidesAllShown | includes/global/content/slideshow.php:318-338 | when no posted slide is disabled, every posted slide is printed under its posted key, in posted order, as the view of its sanitized posted fields |
| Pipeline.SavedShortcodeShown | includes/global/content/slideshow.php:366-369 | with the corrected test, a shortcode block prints the posted shortcode exactly when it passed the guard |

## Left out

- Markup: the HTML, CSS classes and script text are not modelled. Renderers
  return structured values: slides, links, captions and script options.
- The `blox_content_slideshow_classes` filter and the `#blox_<scope>_<id>`
  selector are not modelled. They only decorate the markup, assuming PHP 7.
  The flexslider renderer and the three third-party guards (lines 601, 895,
  962 and 1027) pass an undefined `$classes` to the filter. PHP 7 prints a
  warning and goes on. From PHP 8 on, `implode` of that null throws a
  TypeError, and nothing after it is printed. The model follows PHP 7.
- Asset enqueueing, the media modal, the admin-only third-party pickers,
  the singleton, the hooks and translations are not modelled. They involve
  no decision the block makes.
- Third-party embeds are not modelled. `do_shortcode`, `putRevSlider` and
  the sliders' output are foreign code; an embed is an opaque
  `SliderEmbed` or `ShortcodeEmbed` value.
- The escaping functions and the media lookups are not modelled. They are
  caller-supplied and uninterpreted.
- The browser's decoding of `esc_attr` output when a form field is posted
  back is not modelled. The form model posts the stored text as it was
  stored.
- Form.SettingsRoundTrip: stated only for the animations the select
  offers. Any other stored animation is posted back as "slide".
- Form.SlideRoundTrip: stated only for slides whose texts the form can
  show. It assumes the escaping calls are idempotent, because their real
  behaviour is outside the model.
- The form's slide list is not modelled as a whole. Only the per-slide
  round trip is stated; a list round trip follows key by key from
  `Sanitize.SanitizeSlides`.
- The flexslider "no slides" notice is not modelled. Its guard tests the
  whole builtin part, which a save always fills with settings, so stored
  data never reaches it.
- Posted values that are booleans, floats or null are not modelled. PHP
  arrays with repeated keys and string offsets into non-array values are
  not modelled either. The form never posts them.
- Posted integers and arrays in text fields are only roughly modelled. An
  array is read as the string "Array", where `strip_tags` and `trim` would
  give null. A comparison of a posted integer 0 with "http://" is false in
  the model; it is true before PHP 8. The form posts only strings there.
- A type filter that adds a type named builtin or shortcode, or that
  reorders the base types, is not modelled. The registry lemmas assume the
  filter only appends third-party types.
- `preg_match` on an array (a PHP warning and a failed match) is not
  modelled separately. A non-string posted shortcode is treated as
  rejected.
- The admin form's slideshow-type select (lines 128-131) and its shortcode
  field (line 277) are not modelled. They post the chosen type and the typed
  shortcode unchanged; the model starts from the posted values.
- The posted `slide_type` field is not modelled. It is never read; every
  saved slide is an image slide.

## Findings

| source | as written | input that shows it | evidently intended | confidence | as-written member | corrected member |
|---|---|---|---|---|---|---|
| includes/global/content/slideshow.php:549-553 | the shortcode branch tests the block's top-level `$content_data['shortcode']` but prints `$content_data['slideshow']['shortcode']`, which is the key the sanitizer writes | a block of type shortcode whose saved shortcode is `[gallery]` and which has no top-level `shortcode` key: nothing is printed | test the same key that is printed | not executed | Dispatch.ShortcodeNeverShown | Dispatch.CorrectedRoute |

=== FILE: dispatch.dfy ===
/**
 * `print_slideshow_content`: which renderer prints a block's slideshow, and
 * the `display_slideshow_*` guards of the three third-party sliders.  Under
 * PHP 7 every case prints something or nothing; none fails.
 *
 * The shortcode case is modelled twice.  `Route` follows the code, which
 * decides on the block's top-level `shortcode` key but prints the
 * slideshow's own `shortcode`; `CorrectedRoute` decides on the key it prints.
 */
module Dispatch {
  import opened Php
  import opened Host
  import opened Stored
  import Registry
  import Slick
  import Flexslider

  /** The block data the printer receives: the stored slideshow under
      `['slideshow']` and whatever sits under the block's own `['shortcode']`. */
  datatype Content = Content(slideshow: Slideshow, shortcode: Option<Value>)

  /** What is printed. */
  datatype Output =
    | Nothing
    | ShortcodeEmbed(code: string)                  // do_shortcode( code )
    | SlickSlideshow(slick: Slick.Render)
    | FlexSlideshow(flex: Flexslider.FlexRender)
    | SliderEmbed(provider: string, id: string)     // a third-party slider by id

  /** The plugin file a third-party slider type depends on. */
  function PluginOf(t: string): string {
    if t == "soliloquy" then Registry.SoliloquyPlugin
    else if t == "revolution" then Registry.RevolutionPlugin
    else Registry.MetaSliderPlugin
  }

  predicate IsThirdParty(t: string) {
    t == "soliloquy" || t == "revolution" || t == "metaslider"
  }

  /** `display_slideshow_soliloquy`, `_revolution` and `_metaslider`: the
      slider is embedded unless its id is empty or the "none" choice. */
  function DisplaySlider(provider: string, id: string): (r: Output)
    ensures r.SliderEmbed? <==> !Falsy(id) && id != "none"
    ensures r.SliderEmbed? ==> r.provider == provider && r.id == id
    ensures !r.SliderEmbed? ==> r == Nothing
  {
    if !Falsy(id) && id != "none" then SliderEmbed(provider, id) else Nothing
  }

  /** The branches other than the shortcode one, shared by both routes: the
      builtin type goes to slick or, with slick switched off, to flexslider; a
      third-party type is embedded only when its plugin is active and an id
      that is neither empty nor "none" was stored for it; anything else prints
      nothing. */
  function Others(s: Slideshow, site: Site, esc: Escaping, media: Media): (r: Output)
    ensures r.SlickSlideshow? <==> s.slideshowType == "builtin" && site.useSlick
    ensures r.SlickSlideshow? ==> r.slick == Slick.RenderOf(s.builtin, esc, media)
    ensures r.FlexSlideshow? <==> s.slideshowType == "builtin" && !site.useSlick
    ensures r.FlexSlideshow? ==> r.flex == Flexslider.FlexRenderOf(s.builtin, esc)
    ensures r.SliderEmbed? <==>
              && IsThirdParty(s.slideshowType) && site.active(PluginOf(s.slideshowType))
              && Find(s.providers, s.slideshowType).Some?
              && !Falsy(Find(s.providers, s.slideshowType).value)
              && Find(s.providers, s.slideshowType).value != "none"
    ensures r.SliderEmbed? ==>
              r.provider == s.slideshowType && Find(s.providers, s.slideshowType) == Some(r.id)
    ensures !r.ShortcodeEmbed?
  {
    var t := s.slideshowType;
    if t == "builtin" then
      (if site.useSlick then SlickSlideshow(Slick.RenderOf(s.builtin, esc, media))
       else FlexSlideshow(Flexslider.FlexRenderOf(s.builtin, esc)))
    else if IsThirdParty(t) && site.active(PluginOf(t)) then
      // `! empty( $content_data['slideshow'][t] )`: the stored `[t]['id']`
      // array is non-empty exactly when the id was stored
      (match Find(s.providers, t)
       case Some(id) => DisplaySlider(t, id)
       case None => Nothing)
    else Nothing
  }

  /** `print_slideshow_content` as written: the shortcode case tests the
      block's top-level `shortcode` but prints the slideshow's (null, so "",
      when none was stored). */
  function Route(c: Content, site: Site, esc: Escaping, media: Media): (r: Output)
    ensures c.slideshow.slideshowType != "shortcode" ==> r == Others(c.slideshow, site, esc, media)
    ensures c.slideshow.slideshowType == "shortcode" ==>
              (r.ShortcodeEmbed? <==> !Empty(c.shortcode)) && (!r.ShortcodeEmbed? ==> r == Nothing)
    ensures c.slideshow.slideshowType == "shortcode" && r.ShortcodeEmbed? ==>
              r.code == (if c.slideshow.shortcode.Some? then c.slideshow.shortcode.value else "")
  {
    if c.slideshow.slideshowType == "shortcode" then
      if !Empty(c.shortcode) then
        ShortcodeEmbed(match c.slideshow.shortcode case Some(code) => code case None => "")
      else Nothing
    else Others(c.slideshow, site, esc, media)
  }

  /** The route with the shortcode test reading the key that is printed. */
  function CorrectedRoute(s: Slideshow, site: Site, esc: Escaping, media: Media): (r: Output)
    ensures s.slideshowType != "shortcode" ==> r == Others(s, site, esc, media)
    ensures s.slideshowType == "shortcode" ==>
              && (r.ShortcodeEmbed? <==> s.shortcode.Some? && !Falsy(s.shortcode.value))
              && (r.ShortcodeEmbed? ==> r.code == s.shortcode.value)
              && (!r.ShortcodeEmbed? ==> r == Nothing)
  {
    if s.slideshowType == "shortcode" then
      if s.shortcode.Some? && !Falsy(s.shortcode.value) then ShortcodeEmbed(s.shortcode.value)
      else Nothing
    else Others(s, site, esc, media)
  }

  /** The sanitizer never writes the block's top-level `shortcode`, so as
      written a saved shortcode is never printed; and a block that does carry
      that key but saved no shortcode prints an empty embed. */
  lemma ShortcodeNeverShown(c: Content, site: Site, esc: Escaping, media: Media)
    requires c.slideshow.slideshowType == "shortcode"
    ensures c.shortcode.None? ==> Route(c, site, esc, media) == Nothing
    ensures !Empty(c.shortcode) && c.slideshow.shortcode.None? ==>
              Route(c, site, esc, media) == ShortcodeEmbed("")
  {
  }

  /** A block whose shortcode is `[gallery]` prints nothing as written, and
      prints the gallery once the test reads the printed key. */
  lemma ShortcodeExample(s: Slideshow, site: Site, esc: Escaping, media: Media)
    requires s.slideshowType == "shortcode" && s.shortcode == Some("[gallery]")
    ensures Route(Content(s, None), site, esc, media) == Nothing
    ensures CorrectedRoute(s, site, esc, media) == ShortcodeEmbed("[gallery]")
  {
  }

  /** The builtin type goes to slick unless the site turns slick off, in
      which case the flexslider renderer prints it; the code as written and
      the corrected route agree on it. */
  lemma BuiltinDispatch(c: Content, site: Site, esc: Escaping, media: Media)
    requires c.slideshow.slideshowType == "builtin"
    ensures site.useSlick ==>
              Route(c, site, esc, media) == SlickSlideshow(Slick.RenderOf(c.slideshow.builtin, esc, media))
    ensures !site.useSlick ==>
              Route(c, site, esc, media) == FlexSlideshow(Flexslider.FlexRenderOf(c.slideshow.builtin, esc))
    ensures CorrectedRoute(c.slideshow, site, esc, media) == Route(c, site, esc, media)
  {
  }

  /** A third-party slider is embedded exactly when the type is one of the
      three, its plugin is active, an id was stored for it, and the id is
      neither empty nor "none"; both routes agree on it. */
  lemma ThirdPartyGating(c: Content, site: Site, esc: Escaping, media: Media, p: string, id: string)
    ensures Route(c, site, esc, media) == SliderEmbed(p, id) <==>
              && p == c.slideshow.slideshowType && IsThirdParty(p) && site.active(PluginOf(p))
              && Find(c.slideshow.providers, p) == Some(id) && !Falsy(id) && id != "none"
    ensures CorrectedRoute(c.slideshow, site, esc, media) == SliderEmbed(p, id) <==>
              Route(c, site, esc, media) == SliderEmbed(p, id)
  {
  }

  /** A type other than the five known ones prints nothing, even when the
      type filter offered it and an id was stored for it. */
  lemma UnknownTypePrintsNothing(s: Slideshow, site: Site, esc: Escaping, media: Media)
    requires s.slideshowType !in {"shortcode", "builtin", "soliloquy", "revolution", "metaslider"}
    ensures CorrectedRoute(s, site, esc, media) == Nothing
    ensures Route(Content(s, None), site, esc, media) == Nothing
  {
  }
}

=== FILE: flexslider.dfy ===
/**
 * The older flexslider renderer for the builtin slideshow
 * (`print_slideshow_builtin_flexslider`), used when the slick renderer is
 * switched off.  Unlike slick it prints every stored slide, disabled or not,
 * and its animation defaults to "fade".
 */
module Flexslider {
  import opened Php
  import opened Host
  import opened Stored
  import opened View

  /** One printed slide: an `<img>` with the stored URL, alt and title. */
  datatype FlexView = FlexView(
    key: string, slideType: string, classes: string,
    src: string, alt: string, title: string,
    link: Option<LinkView>, caption: Option<string>)

  /** The options passed to `.flexslider( … )`. */
  datatype FlexParams = FlexParams(
    animation: string, animationLoop: bool, slideshow: bool, pauseOnHover: bool,
    directionNav: bool, controlNav: bool, slideshowSpeed: Speed, animationSpeed: Speed,
    smoothHeight: bool)

  /** The renderer's guard is `! empty( $content_data['slideshow']['builtin'] )`,
      and a stored builtin part always holds its settings, so the notice branch
      is never taken for stored data and only the slider is modelled. */
  datatype FlexRender = FlexSlider(slides: seq<FlexView>, params: FlexParams)

  /** The options: an empty stored animation becomes "fade", the "disable"
      checkboxes for arrows and dots are inverted, the others are passed
      through, and zero speeds fall back to 7000 and 600 ms. */
  function FlexParamsOf(s: Settings, esc: Escaping): (p: FlexParams)
    ensures Falsy(s.animation) ==> p.animation == "fade"
    ensures !Falsy(s.animation) ==> p.animation == s.animation
    ensures p.directionNav <==> !s.directionNav
    ensures p.controlNav <==> !s.controlNav
    ensures p.animationLoop == s.animationLoop && p.slideshow == s.slideshow
    ensures p.pauseOnHover == s.pauseOnHover && p.smoothHeight == s.smoothHeight
    ensures p.slideshowSpeed.Fallback? <==> s.slideshowSpeed == 0
    ensures p.slideshowSpeed.Fallback? ==> p.slideshowSpeed.ms == 7000
    ensures p.animationSpeed.Fallback? <==> s.animationSpeed == 0
    ensures p.animationSpeed.Fallback? ==> p.animationSpeed.ms == 600
  {
    FlexParams(
      if !Falsy(s.animation) then s.animation else "fade",
      s.animationLoop, s.slideshow, s.pauseOnHover,
      !s.directionNav, !s.controlNav,
      SpeedOf(s.slideshowSpeed, 7000, esc),
      SpeedOf(s.animationSpeed, 600, esc),
      s.smoothHeight)
  }

  function FlexViewOf(key: string, s: Slide, settings: Settings, esc: Escaping): (v: FlexView)
    ensures v.key == key && v.slideType == s.slideType && v.classes == s.image.classes
    ensures v.link == LinkOf(s.image.link)
    ensures v.caption == CaptionOf(settings.caption, s.image.caption, esc)
    ensures v.src == AttrOr(s.image.url, "", esc) && v.alt == AttrOr(s.image.alt, "", esc)
    ensures v.title == AttrOr(s.image.title, "", esc)
  {
    FlexView(key, s.slideType, s.image.classes,
             AttrOr(s.image.url, "", esc), AttrOr(s.image.alt, "", esc), AttrOr(s.image.title, "", esc),
             LinkOf(s.image.link), CaptionOf(settings.caption, s.image.caption, esc))
  }

  /** The loop over the stored slides: every one, in stored order. */
  function FlexSlides(es: seq<(string, Slide)>, settings: Settings, esc: Escaping): (r: seq<FlexView>)
    ensures |r| == |es|
    ensures forall i :: 0 <= i < |es| ==> r[i] == FlexViewOf(es[i].0, es[i].1, settings, esc)
  {
    if |es| == 0 then []
    else [FlexViewOf(es[0].0, es[0].1, settings, esc)] + FlexSlides(es[1..], settings, esc)
  }

  /** Every stored slide is printed under its key, disabled ones included; a
      missing or '' slide collection gives an empty loop. */
  function FlexRenderOf(b: Builtin, esc: Escaping): (r: FlexRender)
    ensures NoSlides(b.slides) <==> |r.slides| == 0
    ensures b.slides.Some? && b.slides.value.Slides? ==>
              && |r.slides| == |b.slides.value.entries|
              && forall i :: 0 <= i < |r.slides| ==>
                   r.slides[i] == FlexViewOf(b.slides.value.entries[i].0, b.slides.value.entries[i].1, b.settings, esc)
    ensures r.params == FlexParamsOf(b.settings, esc)
  {
    var es := if b.slides.Some? && b.slides.value.Slides? then b.slides.value.entries else [];
    FlexSlider(FlexSlides(es, b.settings, esc), FlexParamsOf(b.settings, esc))
  }
}

=== FILE: form.dfy ===
/**
 * What the block's admin form posts back for stored data
 * (`get_slideshow_content` and its helper `get_values`), as far as the
 * sanitizer reads it.  The form prints each stored value into a field,
 * escaped with `esc_attr`; the browser undoes that escaping when it posts the
 * field back, so a text field posts the stored text.  A checkbox posts "1"
 * when it is ticked and nothing at all otherwise.
 *
 * Together with the sanitizer this gives the round trip the editor relies
 * on: opening a saved block and saving it again without changes keeps it.
 */
module Form {
  import opened Php
  import opened Host
  import opened Stored
  import opened Sanitize

  /** `get_values( $prefix, $setting, $default )`: a stored block reads its own
      setting, with an empty one read as ''; a block without stored settings
      reads the site-wide option for the setting. */
  function GetValues(prefix: Option<Settings>, k: SettingKey, site: Site): (v: Value)
    ensures prefix.Some? && !Empty(Some(SettingValue(prefix.value, k))) ==> v == SettingValue(prefix.value, k)
    ensures prefix.Some? && Empty(Some(SettingValue(prefix.value, k))) ==> v == Str("")
    ensures prefix.None? ==> v == site.option(OptionName(k))
  {
    if prefix.Some? then
      var v := SettingValue(prefix.value, k);
      if !Empty(Some(v)) then v else Str("")
    else site.option(OptionName(k))
  }

  /** `checked( $v )`: ticked when the value reads as the string "1", which
      only the string "1" and the integer 1 do. */
  predicate Checked(v: Value) {
    IsOne(Some(v))
  }

  /** What a checkbox posts. */
  function Checkbox(ticked: bool): (r: Option<Value>)
    ensures Isset(r) <==> ticked
  {
    if ticked then Some(Str("1")) else None
  }

  /** A text field posting the given text. */
  function Field(s: string): Option<Value> {
    Some(Str(s))
  }

  /** The checkbox printed for a setting. */
  function SettingBox(prefix: Option<Settings>, k: SettingKey, site: Site): Option<Value> {
    Checkbox(Checked(GetValues(prefix, k, site)))
  }

  /** The settings part of the form for a block with the given stored
      settings, or for a new block (None), which reads the site options. */
  function FormSettings(prefix: Option<Settings>, site: Site): PostedSettings {
    PostedSettings(
      // a select with the options slide and fade: an unknown value selects
      // neither, and the browser then posts the first option
      Field(if IsText(Some(GetValues(prefix, Animation, site)), "fade") then "fade" else "slide"),
      Field(Text(Some(GetValues(prefix, SlideshowSpeed, site)))),
      Field(Text(Some(GetValues(prefix, AnimationSpeed, site)))),
      SettingBox(prefix, Autoplay, site),
      SettingBox(prefix, AnimationLoop, site),
      SettingBox(prefix, PauseOnHover, site),
      SettingBox(prefix, SmoothHeight, site),
      SettingBox(prefix, DirectionNav, site),
      SettingBox(prefix, ControlNav, site),
      SettingBox(prefix, Caption, site),
      SettingBox(prefix, BackgroundImages, site))
  }

  /** The link URL field: an empty stored URL is shown as the "http://"
      placeholder. */
  function FormLinkUrl(url: string): string {
    if !Falsy(url) then url else "http://"
  }

  /** The hidden fields the form prints for one stored slide. */
  function FormSlide(s: Slide): PostedSlide {
    var img := s.image;
    PostedSlide(
      Checkbox(s.disable),
      PostedImage(
        Field(img.id), Field(img.url), Field(img.title), Field(img.alt), Field(img.size),
        PostedLink(
          Checkbox(img.link.enable),
          Field(FormLinkUrl(img.link.url)),
          Field(if !Falsy(img.link.title) then img.link.title else ""),
          Checkbox(img.link.target)),
        Field(img.caption),
        Field(if !Falsy(img.classes) then img.classes else "")))
  }

  /** The placeholder round trip: a stored empty link URL is shown as
      "http://" and saved back as empty; any other stored URL is escaped
      again, unless it is the placeholder itself or "0". */
  lemma LinkUrlRoundTrip(url: string, esc: Escaping)
    ensures Falsy(url) || url == "http://" ==> LinkUrl(Field(FormLinkUrl(url)), esc) == ""
    ensures !Falsy(url) && url != "http://" ==> LinkUrl(Field(FormLinkUrl(url)), esc) == esc.url(url)
  {
  }

  /** Re-saving a saved slide unchanged keeps it, provided the sanitizers do
      not change what they have already produced and the slide avoids the
      texts the form cannot show: a link URL of "http://" or "0", a link
      title or classes of "0", an empty size. */
  lemma SlideRoundTrip(p: PostedSlide, esc: Escaping)
    requires Idempotent(esc.plain) && Idempotent(esc.url) && Idempotent(esc.post) && Idempotent(esc.attr)
    requires esc.plain("") == "" && esc.attr("full") == "full"
    requires SanitizeSlide(p, esc).image.link.url != "http://" && SanitizeSlide(p, esc).image.link.url != "0"
    requires SanitizeSlide(p, esc).image.link.title != "0" && SanitizeSlide(p, esc).image.classes != "0"
    requires !Falsy(SanitizeSlide(p, esc).image.size)
    ensures SanitizeSlide(FormSlide(SanitizeSlide(p, esc)), esc) == SanitizeSlide(p, esc)
  {
  }

  /** A link title of "0" reads as empty in the form, so re-saving the slide
      loses it. */
  lemma LinkTitleZeroLost(s: Slide, esc: Escaping)
    requires s.image.link.title == "0"
    requires esc.plain("") == ""
    ensures SanitizeSlide(FormSlide(s), esc).image.link.title == ""
  {
  }

  /** Re-saving stored settings unchanged keeps them, provided the animation
      is one the select offers, escaping leaves it alone, and the integer
      reading of a posted speed gives back the stored number ('' reading as
      0). */
  lemma SettingsRoundTrip(s: Settings, site: Site, esc: Escaping)
    requires s.animation == "slide" || s.animation == "fade"
    requires esc.attr(s.animation) == s.animation
    requires esc.absint(Field("")) == 0
    requires s.slideshowSpeed != 0 ==> esc.absint(Field(Decimal(s.slideshowSpeed))) == s.slideshowSpeed
    requires s.animationSpeed != 0 ==> esc.absint(Field(Decimal(s.animationSpeed))) == s.animationSpeed
    ensures SanitizeSettings(FormSettings(Some(s), site), esc) == s
  {
    FormFlags(s, site);
    FormTexts(s, site, esc);
    SettingsRebuilt(FormSettings(Some(s), site), s, esc);
  }

  /** Each checkbox of a stored block's form is ticked exactly when set. */
  lemma FormFlags(s: Settings, site: Site)
    ensures var p := FormSettings(Some(s), site);
      && Isset(p.slideshow) == s.slideshow && Isset(p.animationLoop) == s.animationLoop
      && Isset(p.pauseOnHover) == s.pauseOnHover && Isset(p.smoothHeight) == s.smoothHeight
      && Isset(p.directionNav) == s.directionNav && Isset(p.controlNav) == s.controlNav
      && Isset(p.caption) == s.caption && Isset(p.backgroundImages) == s.backgroundImages
  {
    var p := FormSettings(Some(s), site);
    assert Isset(p.slideshow) == s.slideshow by { FlagBox(s, Autoplay, site, s.slideshow); }
    assert Isset(p.animationLoop) == s.animationLoop by { FlagBox(s, AnimationLoop, site, s.animationLoop); }
    assert Isset(p.pauseOnHover) == s.pauseOnHover by { FlagBox(s, PauseOnHover, site, s.pauseOnHover); }
    assert Isset(p.smoothHeight) == s.smoothHeight by { FlagBox(s, SmoothHeight, site, s.smoothHeight); }
    assert Isset(p.directionNav) == s.directionNav by { FlagBox(s, DirectionNav, site, s.directionNav); }
    assert Isset(p.controlNav) == s.controlNav by { FlagBox(s, ControlNav, site, s.controlNav); }
    assert Isset(p.caption) == s.caption by { FlagBox(s, Caption, site, s.caption); }
    assert Isset(p.backgroundImages) == s.backgroundImages by { FlagBox(s, BackgroundImages, site, s.backgroundImages); }
  }

  /** The select and the speed fields of a stored block's form read back as
      stored. */
  lemma FormTexts(s: Settings, site: Site, esc: Escaping)
    requires s.animation == "slide" || s.animation == "fade"
    requires esc.attr(s.animation) == s.animation
    requires esc.absint(Field("")) == 0
    requires s.slideshowSpeed != 0 ==> esc.absint(Field(Decimal(s.slideshowSpeed))) == s.slideshowSpeed
    requires s.animationSpeed != 0 ==> esc.absint(Field(Decimal(s.animationSpeed))) == s.animationSpeed
    ensures var p := FormSettings(Some(s), site);
      && esc.attr(Text(p.animation)) == s.animation
      && esc.absint(p.slideshowSpeed) == s.slideshowSpeed
      && esc.absint(p.animationSpeed) == s.animationSpeed
  {
    SpeedBox(s, SlideshowSpeed, site, s.slideshowSpeed, esc);
    SpeedBox(s, AnimationSpeed, site, s.animationSpeed, esc);
  }

  /** The animation select of a stored block posts "fade" exactly when the
      stored animation is fade; any other stored value, which matches
      neither option, posts the first option, "slide". */
  lemma FormAnimation(s: Settings, site: Site)
    ensures FormSettings(Some(s), site).animation == Field(if s.animation == "fade" then "fade" else "slide")
  {
  }

  /** A stored checkbox setting is shown ticked exactly when it is set. */
  lemma FlagBox(s: Settings, k: SettingKey, site: Site, b: bool)
    requires SettingValue(s, k) == Flag(b)
    ensures Isset(SettingBox(Some(s), k, site)) == b
  {
  }

  /** A stored speed is shown so that reading it back gives the number. */
  lemma SpeedBox(s: Settings, k: SettingKey, site: Site, n: nat, esc: Escaping)
    requires SettingValue(s, k) == Int(n)
    requires esc.absint(Field("")) == 0
    requires n != 0 ==> esc.absint(Field(Decimal(n))) == n
    ensures esc.absint(Field(Text(Some(GetValues(Some(s), k, site))))) == n
  {
  }

  /** Sanitizing gives back `s` once every posted field yields its stored value. */
  lemma SettingsRebuilt(p: PostedSettings, s: Settings, esc: Escaping)
    requires esc.attr(Text(p.animation)) == s.animation
    requires esc.absint(p.slideshowSpeed) == s.slideshowSpeed && esc.absint(p.animationSpeed) == s.animationSpeed
    requires Isset(p.slideshow) == s.slideshow && Isset(p.animationLoop) == s.animationLoop
    requires Isset(p.pauseOnHover) == s.pauseOnHover && Isset(p.smoothHeight) == s.smoothHeight
    requires Isset(p.directionNav) == s.directionNav && Isset(p.controlNav) == s.controlNav
    requires Isset(p.caption) == s.caption && Isset(p.backgroundImages) == s.backgroundImages
    ensures SanitizeSettings(p, esc) == s
  {
  }

  /** A new block's form ticks a checkbox exactly when the site-wide option
      for it is "1" or 1, and saving it stores that choice; its animation is
      fade exactly when the site option says fade. */
  lemma NewBlockDefaults(site: Site, esc: Escaping)
    ensures var s := SanitizeSettings(FormSettings(None, site), esc);
      && (s.slideshow <==> IsOne(Some(site.option(OptionName(Autoplay)))))
      && (s.animationLoop <==> IsOne(Some(site.option(OptionName(AnimationLoop)))))
      && (s.pauseOnHover <==> IsOne(Some(site.option(OptionName(PauseOnHover)))))
      && (s.smoothHeight <==> IsOne(Some(site.option(OptionName(SmoothHeight)))))
      && (s.directionNav <==> IsOne(Some(site.option(OptionName(DirectionNav)))))
      && (s.controlNav <==> IsOne(Some(site.option(OptionName(ControlNav)))))
      && (s.caption <==> IsOne(Some(site.option(OptionName(Caption)))))
      && (s.backgroundImages <==> IsOne(Some(site.option(OptionName(BackgroundImages)))))
      && (s.animation == esc.attr(if IsText(Some(site.option(OptionName(Animation))), "fade") then "fade" else "slide"))
  {
  }
}

=== FILE: host.dfy ===
/**
 * The host platform's calls that the slideshow block relies on.  None of
 * them is interpreted: each is a total function supplied by the caller, so
 * every property proved about the block holds whatever the platform does,
 * unless a lemma states an assumption about it.
 */
module Host {
  import opened Php

  /** The escaping and sanitizing calls used when saving and printing. */
  datatype Escaping = Escaping(
    attr: string -> string,          // esc_attr
    url: string -> string,           // esc_url
    plain: string -> string,         // trim( strip_tags( … ) )
    post: string -> string,          // wp_kses_post
    absint: Option<Value> -> nat)    // absint, applied to the raw posted value

  /** Media library lookups for an attachment id and a rendition name. */
  datatype Media = Media(
    src: (string, string) -> string,                  // wp_get_attachment_image_src( id, size )[0]
    tag: (string, string, string, string) -> string)  // wp_get_attachment_image( id, size, '', title, alt )

  /** The state of the site the block is saved or printed on. */
  datatype Site = Site(
    active: string -> bool,                                      // is_plugin_active( file )
    typeFilter: seq<(string, string)> -> seq<(string, string)>,  // the 'blox_slideshow_type' filter
    useSlick: bool,                                              // the 'blox_builtin_slideshow_use_slick' filter
    option: string -> Value)                                     // blox_get_option( key, '' )

  /** `f` changes nothing it has already produced. */
  ghost predicate Idempotent(f: string -> string) {
    forall s :: f(f(s)) == f(s)
  }
}

=== FILE: php.dfy ===
/**
 * PHP values as the slideshow block sees them: the fields of a posted admin
 * form and the settings array stored for a block.  PHP's ordered associative
 * arrays are sequences of key/value pairs; the functions below give them
 * PHP's read (`$a[$k]`), write (`$a[$k] = $v`), `isset` and `empty`
 * behaviour.
 */
module Php {

  datatype Option<+T> = None | Some(value: T)

  /** A PHP value.  Array keys are strings; the block never stores booleans,
      floats or null, so those are not represented. */
  datatype Value = Str(s: string) | Int(n: int) | Arr(entries: seq<(string, Value)>)

  /** The keys of an array, in order. */
  function Keys<V>(es: seq<(string, V)>): (ks: seq<string>)
    ensures |ks| == |es|
    ensures forall i {:trigger ks[i]} :: 0 <= i < |es| ==> ks[i] == es[i].0
  {
    if |es| == 0 then [] else [es[0].0] + Keys(es[1..])
  }

  /** No key occurs twice; every PHP array has this shape. */
  predicate Distinct(ks: seq<string>) {
    forall i, j :: 0 <= i < j < |ks| ==> ks[i] != ks[j]
  }

  /** `$a[$k]` on an array: the value stored under `k`, if any. */
  function Find<V>(es: seq<(string, V)>, k: string): Option<V> {
    if |es| == 0 then None
    else if es[0].0 == k then Some(es[0].1)
    else Find(es[1..], k)
  }

  /** `$a[$k] = $v`: the key then holds `v` and every other key reads as before. */
  function Assign<V>(es: seq<(string, V)>, k: string, v: V): (r: seq<(string, V)>)
    ensures Find(r, k) == Some(v)
    ensures forall k' :: k' != k ==> Find(r, k') == Find(es, k')
  {
    if |es| == 0 then [(k, v)]
    else if es[0].0 == k then [(k, v)] + es[1..]
    else [es[0]] + Assign(es[1..], k, v)
  }

  /** A key is found exactly when it is one of the array's keys. */
  lemma {:induction false} FindKeys<V>(es: seq<(string, V)>, k: string)
    ensures Find(es, k).Some? <==> k in Keys(es)
  {
    if |es| > 0 {
      assert Keys(es) == [es[0].0] + Keys(es[1..]);
      FindKeys(es[1..], k);
    }
  }

  /** Writing a new key appends it; overwriting a present key keeps the key
      order, as PHP does. */
  lemma {:induction false} AssignKeys<V>(es: seq<(string, V)>, k: string, v: V)
    ensures k !in Keys(es) ==> Assign(es, k, v) == es + [(k, v)]
    ensures k in Keys(es) ==> Keys(Assign(es, k, v)) == Keys(es)
  {
    if |es| > 0 {
      var t := Assign(es[1..], k, v);
      assert Keys(es) == [es[0].0] + Keys(es[1..]);
      AssignKeys(es[1..], k, v);
      if es[0].0 == k {
        assert Keys([(k, v)] + es[1..]) == [k] + Keys(es[1..]);
      } else {
        var r := [es[0]] + t;
        assert r[1..] == t;
        assert Keys(r) == [es[0].0] + Keys(t);
        if k !in Keys(es) {
          calc {
            r;
            [es[0]] + (es[1..] + [(k, v)]);
            ([es[0]] + es[1..]) + [(k, v)];
            { assert [es[0]] + es[1..] == es; }
            es + [(k, v)];
          }
        }
      }
    }
  }

  /** The keys of a concatenation are the keys of its parts. */
  lemma KeysAppend<V>(a: seq<(string, V)>, b: seq<(string, V)>)
    ensures Keys(a + b) == Keys(a) + Keys(b)
  {
  }

  /** In an array without repeated keys, every entry is found under its key. */
  lemma {:induction false} FindDistinct<V>(es: seq<(string, V)>, i: int)
    requires Distinct(Keys(es))
    requires 0 <= i < |es|
    ensures Find(es, es[i].0) == Some(es[i].1)
  {
    if i > 0 {
      assert Keys(es)[0] != Keys(es)[i];
      assert Distinct(Keys(es[1..])) by {
        forall a, b | 0 <= a < b < |es| - 1
          ensures Keys(es[1..])[a] != Keys(es[1..])[b]
        {
          assert Keys(es)[a + 1] != Keys(es)[b + 1];
        }
      }
      FindDistinct(es[1..], i - 1);
    }
  }

  /** `$v[$k]` where `$v` may be missing or not an array. */
  function At(o: Option<Value>, k: string): Option<Value> {
    if o.Some? && o.value.Arr? then Find(o.value.entries, k) else None
  }

  /** `$v[$k1][$k2]…`: a missing or non-array step reads as missing. */
  function Path(o: Option<Value>, ks: seq<string>): Option<Value>
    decreases |ks|
  {
    if |ks| == 0 then o else Path(At(o, ks[0]), ks[1..])
  }

  /** PHP `isset()`; the model has no null, so present means set. */
  predicate Isset(o: Option<Value>) {
    o.Some?
  }

  /** The two strings PHP treats as false. */
  predicate Falsy(s: string) {
    s == "" || s == "0"
  }

  /** PHP `empty()`: missing, "", "0", 0 or an empty array. */
  predicate Empty(o: Option<Value>) {
    match o
    case None => true
    case Some(Str(s)) => Falsy(s)
    case Some(Int(n)) => n == 0
    case Some(Arr(es)) => |es| == 0
  }

  /** The string PHP makes of a scalar where a string is expected (null gives "").
      An array has no such string: `strip_tags` and `trim` give null for one, and
      "Array" here only stands for "some string"; the form never posts an array
      where text is expected. */
  function Text(o: Option<Value>): string {
    match o
    case None => ""
    case Some(Str(s)) => s
    case Some(Int(n)) => Decimal(n)
    case Some(Arr(_)) => "Array"
  }

  /** Loose `$v == 'lit'` for a non-numeric literal, on a string `$v`: only that
      string is equal.  (Before PHP 8 the integer 0 also equals such a literal;
      the form never posts an integer here.) */
  predicate IsText(o: Option<Value>, lit: string) {
    o == Some(Str(lit))
  }

  /** `(string) $v === "1"`, the test `checked( $v )` makes: only the integer 1 and the string "1" pass. */
  predicate IsOne(o: Option<Value>) {
    o == Some(Int(1)) || o == Some(Str("1"))
  }

  /** The `1 : 0` a checkbox field is stored as. */
  function Flag(b: bool): Value {
    Int(if b then 1 else 0)
  }

  /** Decimal notation of an integer, as PHP converts it to a string. */
  function Decimal(n: int): string {
    if n < 0 then "-" + Digits(-n) else Digits(n)
  }

  function Digits(n: nat): (s: string)
    ensures |s| > 0
  {
    if n < 10 then [(48 + n) as char] else Digits(n / 10) + [(48 + n % 10) as char]
  }
}

=== FILE: pipeline.dfy ===
/**
 * From the posted form to the front end: what the editor ticks and types
 * decides what visitors see, through the sanitizer, the stored data and the
 * renderers.
 */
module Pipeline {
  import opened Php
  import opened Host
  import opened Stored
  import opened Sanitize
  import opened View
  import Slick
  import Dispatch

  /** With `esc_attr` leaving "1" alone, a saved slide is shown exactly when
      its "disable" box was not posted. */
  lemma SavedSlideVisibility(p: PostedSlide, esc: Escaping)
    requires esc.attr("1") == "1"
    ensures Slick.Visible(SanitizeSlide(p, esc), esc) <==> !Isset(p.disable)
  {
  }

  /** A saved slide is wrapped in a link exactly when "enable" was posted and
      a URL other than the placeholder was posted that escapes to a non-empty
      string; the link opens a new window exactly when "target" was posted. */
  lemma SavedSlideLink(p: PostedSlide, esc: Escaping)
    ensures var l := LinkOf(SanitizeSlide(p, esc).image.link);
      && (l.Some? <==>
            && Isset(p.image.link.enable) && Isset(p.image.link.url)
            && !IsText(p.image.link.url, "http://") && !Falsy(esc.url(Text(p.image.link.url))))
      && (l.Some? ==> (l.value.target == "_blank" <==> Isset(p.image.link.target)))
  {
  }

  /** The slider options follow the posted checkboxes: arrows and dots are on
      exactly when their "disable" boxes were not posted, autoplay and looping
      exactly when theirs were; a speed posted as anything that reads as 0
      gives the default. */
  lemma SavedParams(p: PostedSettings, esc: Escaping)
    ensures var q := Slick.ParamsOf(SanitizeSettings(p, esc), esc);
      && (q.arrows <==> !Isset(p.directionNav)) && (q.dots <==> !Isset(p.controlNav))
      && (q.autoplay <==> Isset(p.slideshow)) && (q.infinite <==> Isset(p.animationLoop))
      && (q.pauseOnHover <==> Isset(p.pauseOnHover)) && (q.adaptiveHeight <==> Isset(p.smoothHeight))
      && (q.autoplaySpeed.Fallback? <==> esc.absint(p.slideshowSpeed) == 0)
      && (q.speed.Fallback? <==> esc.absint(p.animationSpeed) == 0)
  {
  }

  /** The "no slides" notice is printed exactly when no non-empty array of
      slides was posted. */
  lemma SavedNoSlidesNotice(o: Option<Value>, settings: Settings, esc: Escaping, media: Media)
    ensures Slick.RenderOf(Builtin(SavedSlides(o, esc), settings), esc, media).NoSlidesNotice?
            <==> !(o.Some? && o.value.Arr? && |o.value.entries| > 0)
  {
  }

  /** When no posted slide has its "disable" box ticked, every posted slide is
      printed, under its posted key and in posted order. */
  lemma SavedSlidesAllShown(es: seq<(string, Value)>, settings: Settings, esc: Escaping, media: Media)
    requires |es| > 0
    requires forall i :: 0 <= i < |es| ==> !Isset(ReadSlide(Some(es[i].1)).disable)
    ensures var r := Slick.RenderOf(Builtin(SavedSlides(Some(Arr(es)), esc), settings), esc, media);
      && r.Slider? && |r.slides| == |es|
      && forall i :: 0 <= i < |es| ==>
           && r.slides[i].key == es[i].0
           && r.slides[i] == Slick.ViewOf(es[i].0, SanitizeSlide(ReadSlide(Some(es[i].1)), esc), settings, esc, media)
  {
    var saved := SanitizeSlides(es, esc);
    assert SavedSlides(Some(Arr(es)), esc) == Some(Slides(saved));
    assert |saved| == |es| by {
      assert |Keys(saved)| == |Keys(es)|;
    }
    forall i | 0 <= i < |saved|
      ensures !saved[i].1.disable && saved[i].0 == es[i].0
    {
      assert Keys(saved)[i] == Keys(es)[i];
    }
    Slick.AllShown(saved, settings, esc, media);
  }

  /** With the corrected shortcode test, a block of the shortcode type prints
      the posted shortcode exactly when it passed the sanitizer's guard.  (The
      slideshow `Save` returns holds `SavedShortcode` of the posted value.) */
  lemma SavedShortcodeShown(s: Slideshow, posted: Option<Value>, site: Site, esc: Escaping, media: Media)
    requires s.slideshowType == "shortcode"
    requires s.shortcode == SavedShortcode(posted)
    ensures var out := Dispatch.CorrectedRoute(s, site, esc, media);
      && (out.ShortcodeEmbed? <==> ShortcodeSubmitted(posted))
      && (out.ShortcodeEmbed? ==> posted == Some(Str(out.code)))
  {
  }
}

=== FILE: registry.dfy ===
/**
 * The slideshow types a block can choose from (`get_slideshow_types`): the
 * builtin slider, one entry per active third-party slider plugin, whatever
 * the 'blox_slideshow_type' filter adds, and finally the shortcode option.
 */
module Registry {
  import opened Php
  import opened Host

  const SoliloquyPlugin := "soliloquy/soliloquy.php"
  const RevolutionPlugin := "revslider/revslider.php"
  const MetaSliderPlugin := "ml-slider/ml-slider.php"

  /** The id => title array built before the filter runs. */
  function BaseTypes(site: Site): seq<(string, string)> {
    [("builtin", "Builtin Slideshow")] + GatedTypes(site)
  }

  /** The third-party types whose plugin is active, in their fixed order. */
  function GatedTypes(site: Site): seq<(string, string)> {
    (if site.active(SoliloquyPlugin) then [("soliloquy", "Soliloquy Slider")] else [])
    + (if site.active(RevolutionPlugin) then [("revolution", "Revolution Slider")] else [])
    + (if site.active(MetaSliderPlugin) then [("metaslider", "Meta Slider")] else [])
  }

  /** The ids of the third-party types gated by their plugin, in offer order. */
  function GatedIds(site: Site): seq<string> {
    (if site.active(SoliloquyPlugin) then ["soliloquy"] else [])
    + (if site.active(RevolutionPlugin) then ["revolution"] else [])
    + (if site.active(MetaSliderPlugin) then ["metaslider"] else [])
  }

  /** `get_slideshow_types()`: whatever the filter returns, the shortcode
      option is always offered. */
  function SlideshowTypes(site: Site): (r: seq<(string, string)>)
    ensures "shortcode" in Keys(r)
    ensures Find(r, "shortcode") == Some("Shortcode")
  {
    var r := Assign(site.typeFilter(BaseTypes(site)), "shortcode", "Shortcode");
    FindKeys(r, "shortcode");
    r
  }

  /** A type that stores an external slider id: neither builtin nor shortcode. */
  predicate IsProvider(t: string) {
    t != "builtin" && t != "shortcode"
  }

  /** The provider ids of a type list, in order. */
  function ProviderIds(types: seq<(string, string)>): (ids: seq<string>)
    ensures forall t :: t in ids <==> t in Keys(types) && IsProvider(t)
    ensures |ids| <= |types|
  {
    if |types| == 0 then []
    else
      assert Keys(types) == [types[0].0] + Keys(types[1..]);
      (if IsProvider(types[0].0) then [types[0].0] else []) + ProviderIds(types[1..])
  }

  lemma {:induction false} ProviderIdsAppend(a: seq<(string, string)>, b: seq<(string, string)>)
    ensures ProviderIds(a + b) == ProviderIds(a) + ProviderIds(b)
  {
    if |a| == 0 {
      assert a + b == b;
    } else {
      assert (a + b)[1..] == a[1..] + b;
      ProviderIdsAppend(a[1..], b);
    }
  }

  /** When the filter only appends types other than builtin and shortcode, the
      list is builtin, the active gated plugins in their fixed order, the
      added types, then shortcode; a gated type is offered iff its plugin is
      active. */
  lemma TypesInOrder(site: Site, extras: seq<(string, string)>)
    requires site.typeFilter(BaseTypes(site)) == BaseTypes(site) + extras
    requires "shortcode" !in Keys(extras)
    ensures Keys(SlideshowTypes(site)) == ["builtin"] + GatedIds(site) + Keys(extras) + ["shortcode"]
  {
    var pre := BaseTypes(site) + extras;
    assert Keys(pre) == ["builtin"] + GatedIds(site) + Keys(extras) by {
      BaseKeys(site);
      KeysAppend(BaseTypes(site), extras);
    }
    assert "shortcode" !in Keys(pre) by {
      GatedMembership(site);
    }
    AssignKeys(pre, "shortcode", "Shortcode");
    assert SlideshowTypes(site) == pre + [("shortcode", "Shortcode")];
    KeysAppend(pre, [("shortcode", "Shortcode")]);
  }

  /** Under the same filter assumption, builtin comes first, shortcode last,
      and a gated type the filter does not add is offered iff its plugin is
      active. */
  lemma TypesOffered(site: Site, extras: seq<(string, string)>)
    requires site.typeFilter(BaseTypes(site)) == BaseTypes(site) + extras
    requires "shortcode" !in Keys(extras)
    ensures SlideshowTypes(site)[0].0 == "builtin"
    ensures SlideshowTypes(site)[|SlideshowTypes(site)| - 1].0 == "shortcode"
    ensures "soliloquy" !in Keys(extras) ==>
              ("soliloquy" in Keys(SlideshowTypes(site)) <==> site.active(SoliloquyPlugin))
    ensures "revolution" !in Keys(extras) ==>
              ("revolution" in Keys(SlideshowTypes(site)) <==> site.active(RevolutionPlugin))
    ensures "metaslider" !in Keys(extras) ==>
              ("metaslider" in Keys(SlideshowTypes(site)) <==> site.active(MetaSliderPlugin))
  {
    TypesInOrder(site, extras);
    var ks := Keys(SlideshowTypes(site));
    assert ks[0] == "builtin";
    assert ks[|ks| - 1] == "shortcode";
    var g := GatedIds(site);
    GatedMembership(site);
    MemberBetween("soliloquy", g, Keys(extras), ks);
    MemberBetween("revolution", g, Keys(extras), ks);
    MemberBetween("metaslider", g, Keys(extras), ks);
  }

  /** Under the same filter assumption, the provider ids are the active gated
      plugins followed by the added types. */
  lemma ProvidersOfTypes(site: Site, extras: seq<(string, string)>)
    requires site.typeFilter(BaseTypes(site)) == BaseTypes(site) + extras
    requires forall t :: t in Keys(extras) ==> IsProvider(t)
    ensures ProviderIds(SlideshowTypes(site)) == GatedIds(site) + Keys(extras)
  {
    var base := BaseTypes(site);
    var sc := [("shortcode", "Shortcode")];
    var r := SlideshowTypes(site);
    assert r == (base + extras) + sc by {
      assert "shortcode" !in Keys(base + extras) by {
        BaseKeys(site);
        GatedMembership(site);
        KeysAppend(base, extras);
      }
      AssignKeys(base + extras, "shortcode", "Shortcode");
    }
    assert ProviderIds(sc) == [];
    calc {
      ProviderIds(r);
    == { ProviderIdsAppend(base + extras, sc); }
      ProviderIds(base + extras);
    == { ProviderIdsAppend(base, extras); }
      ProviderIds(base) + ProviderIds(extras);
    == { BaseProviders(site); ProviderIdsOfProviders(extras); }
      GatedIds(site) + Keys(extras);
    }
  }

  lemma BaseProviders(site: Site)
    ensures ProviderIds(BaseTypes(site)) == GatedIds(site)
  {
    var b := [("builtin", "Builtin Slideshow")];
    var g := GatedTypes(site);
    assert ProviderIds(b) == [] by {
      assert b[1..] == [];
    }
    BaseKeys(site);
    GatedMembership(site);
    ProviderIdsOfProviders(g);
    ProviderIdsAppend(b, g);
  }

  lemma {:induction false} ProviderIdsOfProviders(types: seq<(string, string)>)
    requires forall t :: t in Keys(types) ==> IsProvider(t)
    ensures ProviderIds(types) == Keys(types)
  {
    if |types| > 0 {
      assert Keys(types) == [types[0].0] + Keys(types[1..]);
      ProviderIdsOfProviders(types[1..]);
    }
  }

  lemma BaseKeys(site: Site)
    ensures Keys(GatedTypes(site)) == GatedIds(site)
    ensures Keys(BaseTypes(site)) == ["builtin"] + GatedIds(site)
  {
    var a := if site.active(SoliloquyPlugin) then [("soliloquy", "Soliloquy Slider")] else [];
    var b := if site.active(RevolutionPlugin) then [("revolution", "Revolution Slider")] else [];
    var c := if site.active(MetaSliderPlugin) then [("metaslider", "Meta Slider")] else [];
    KeysAppend(a, b);
    KeysAppend(a + b, c);
    KeysAppend([("builtin", "Builtin Slideshow")], GatedTypes(site));
  }

  lemma GatedMembership(site: Site)
    ensures "soliloquy" in GatedIds(site) <==> site.active(SoliloquyPlugin)
    ensures "revolution" in GatedIds(site) <==> site.active(RevolutionPlugin)
    ensures "metaslider" in GatedIds(site) <==> site.active(MetaSliderPlugin)
    ensures "builtin" !in GatedIds(site) && "shortcode" !in GatedIds(site)
    ensures forall t :: t in GatedIds(site) ==> IsProvider(t)
  {
  }

  lemma MemberBetween(t: string, g: seq<string>, e: seq<string>, ks: seq<string>)
    requires ks == ["builtin"] + g + e + ["shortcode"]
    requires IsProvider(t)
    ensures t !in e ==> (t in ks <==> t in g)
  {
  }
}

=== FILE: sanitize.dfy ===
/**
 * `save_slideshow_content`: turns the posted `[slideshow]` part of the block
 * form into the stored slideshow.  It never fails.  A missing field reads as
 * absent. A checkbox is stored as set exactly when its field was posted,
 * whatever the field's value. The one guarded field, the shortcode, is left
 * out when it does not look like `[…]`.
 *
 * The posted form is a raw PHP array.  Its fields are read first into the
 * `Posted…` records below, one record field per posted field, and the records
 * are then sanitized into the stored ones.  PHP arrays never repeat a key,
 * so each write inside the two loops adds a new key.
 */
module Sanitize {
  import opened Php
  import opened Host
  import opened Stored
  import Registry
  import Shortcode

  datatype PostedLink = PostedLink(
    enable: Option<Value>, url: Option<Value>, title: Option<Value>, target: Option<Value>)

  datatype PostedImage = PostedImage(
    id: Option<Value>, url: Option<Value>, title: Option<Value>, alt: Option<Value>,
    size: Option<Value>, link: PostedLink, caption: Option<Value>, classes: Option<Value>)

  /** The posted `slide_type` is never read: every stored slide is an image slide. */
  datatype PostedSlide = PostedSlide(disable: Option<Value>, image: PostedImage)

  datatype PostedSettings = PostedSettings(
    animation: Option<Value>,
    slideshowSpeed: Option<Value>,
    animationSpeed: Option<Value>,
    slideshow: Option<Value>,
    animationLoop: Option<Value>,
    pauseOnHover: Option<Value>,
    smoothHeight: Option<Value>,
    directionNav: Option<Value>,
    controlNav: Option<Value>,
    caption: Option<Value>,
    backgroundImages: Option<Value>)

  function ReadLink(raw: Option<Value>): PostedLink {
    PostedLink(At(raw, "enable"), At(raw, "url"), At(raw, "title"), At(raw, "target"))
  }

  function ReadImage(raw: Option<Value>): PostedImage {
    PostedImage(At(raw, "id"), At(raw, "url"), At(raw, "title"), At(raw, "alt"),
                At(raw, "size"), ReadLink(At(raw, "link")), At(raw, "caption"), At(raw, "classes"))
  }

  function ReadSlide(raw: Option<Value>): PostedSlide {
    PostedSlide(Path(raw, ["visibility", "disable"]), ReadImage(At(raw, "image")))
  }

  function ReadSettings(raw: Option<Value>): PostedSettings {
    PostedSettings(
      At(raw, "animation"), At(raw, "slideshowSpeed"), At(raw, "animationSpeed"),
      At(raw, "slideshow"), At(raw, "animationLoop"), At(raw, "pauseOnHover"),
      At(raw, "smoothHeight"), At(raw, "directionNav"), At(raw, "controlNav"),
      At(raw, "caption"), At(raw, "background_images"))
  }

  // ----- one slide ---------------------------------------------------------

  /** The stored link URL: an absent URL and the form's "http://" placeholder
      both give "", anything else is escaped. */
  function LinkUrl(o: Option<Value>, esc: Escaping): (r: string)
    ensures !Isset(o) || IsText(o, "http://") ==> r == ""
    ensures Isset(o) && !IsText(o, "http://") ==> r == esc.url(Text(o))
  {
    if Isset(o) then (if IsText(o, "http://") then "" else esc.url(Text(o))) else ""
  }

  /** The stored image size: "full" when the posted size is empty. */
  function Size(o: Option<Value>, esc: Escaping): (r: string)
    ensures Empty(o) ==> r == "full"
    ensures !Empty(o) ==> r == esc.attr(Text(o))
  {
    if !Empty(o) then esc.attr(Text(o)) else "full"
  }

  function SanitizeLink(p: PostedLink, esc: Escaping): (r: Link)
    ensures r.enable <==> Isset(p.enable)
    ensures r.target <==> Isset(p.target)
    ensures !Isset(p.title) ==> r.title == ""
    ensures Isset(p.title) ==> r.title == esc.plain(Text(p.title))
    ensures r.url == LinkUrl(p.url, esc)
  {
    Link(
      Isset(p.enable),
      LinkUrl(p.url, esc),
      if Isset(p.title) then esc.plain(Text(p.title)) else "",
      Isset(p.target))
  }

  /** The image fields: a text field posted as a string is stored sanitized
      (tags and surrounding space removed, or URL- or post-escaped), a missing
      one as the sanitized empty string; an empty size stores "full"; the link
      follows `SanitizeLink`. */
  function SanitizeImage(p: PostedImage, esc: Escaping): (r: Image)
    ensures p.id.Some? && p.id.value.Str? ==> r.id == esc.plain(p.id.value.s)
    ensures p.url.Some? && p.url.value.Str? ==> r.url == esc.url(p.url.value.s)
    ensures p.title.Some? && p.title.value.Str? ==> r.title == esc.plain(p.title.value.s)
    ensures p.alt.Some? && p.alt.value.Str? ==> r.alt == esc.plain(p.alt.value.s)
    ensures p.caption.Some? && p.caption.value.Str? ==> r.caption == esc.post(p.caption.value.s)
    ensures p.classes.Some? && p.classes.value.Str? ==> r.classes == esc.plain(p.classes.value.s)
    ensures !Isset(p.id) ==> r.id == esc.plain("")
    ensures !Isset(p.url) ==> r.url == esc.url("")
    ensures !Isset(p.title) ==> r.title == esc.plain("")
    ensures !Isset(p.alt) ==> r.alt == esc.plain("")
    ensures !Isset(p.caption) ==> r.caption == esc.post("")
    ensures !Isset(p.classes) ==> r.classes == esc.plain("")
    ensures Empty(p.size) ==> r.size == "full"
    ensures r.link.enable <==> Isset(p.link.enable)
    ensures r.link.target <==> Isset(p.link.target)
    ensures !Isset(p.link.url) || IsText(p.link.url, "http://") ==> r.link.url == ""
    ensures r.size == Size(p.size, esc) && r.link == SanitizeLink(p.link, esc)
  {
    Image(
      esc.plain(Text(p.id)),
      esc.url(Text(p.url)),
      esc.plain(Text(p.title)),
      esc.plain(Text(p.alt)),
      Size(p.size, esc),
      SanitizeLink(p.link, esc),
      esc.post(Text(p.caption)),
      esc.plain(Text(p.classes)))
  }

  /** One posted slide: always an image slide; each of its three checkboxes
      is set exactly when posted, whatever was posted for it. */
  function SanitizeSlide(p: PostedSlide, esc: Escaping): (r: Slide)
    ensures r.slideType == "image"
    ensures r.disable <==> Isset(p.disable)
    ensures r.image.link.enable <==> Isset(p.image.link.enable)
    ensures r.image.link.target <==> Isset(p.image.link.target)
  {
    Slide("image", Isset(p.disable), SanitizeImage(p.image, esc))
  }

  // ----- the slide list ----------------------------------------------------

  /** The loop over the posted slides: each posted key, in posted order,
      receives the slide sanitized from the value posted under it. */
  function SanitizeSlides(es: seq<(string, Value)>, esc: Escaping): (r: seq<(string, Slide)>)
    ensures Keys(r) == Keys(es)
    ensures forall i :: 0 <= i < |es| ==> r[i].1 == SanitizeSlide(ReadSlide(Some(es[i].1)), esc)
  {
    if |es| == 0 then []
    else
      var r := [(es[0].0, SanitizeSlide(ReadSlide(Some(es[0].1)), esc))] + SanitizeSlides(es[1..], esc);
      assert Keys(r) == [r[0].0] + Keys(r[1..]);
      assert Keys(es) == [es[0].0] + Keys(es[1..]);
      r
  }

  /** What `$settings['builtin']['slides']` ends up holding: the '' marker
      when nothing was posted; for a non-empty posted array, its keys in
      order, each with the slide sanitized from its posted value; nothing at
      all when the posted value is an empty array or not an array, as the
      loop then never runs. */
  function SavedSlides(o: Option<Value>, esc: Escaping): (r: Option<SlideList>)
    ensures !Isset(o) <==> r == Some(Unset)
    ensures Isset(o) && (Empty(o) || !o.value.Arr?) ==> r.None?
    ensures forall es: seq<(string, Value)> :: o == Some(Arr(es)) && |es| > 0 ==>
              && r.Some? && r.value.Slides?
              && Keys(r.value.entries) == Keys(es)
              && forall i :: 0 <= i < |es| ==> r.value.entries[i].1 == SanitizeSlide(ReadSlide(Some(es[i].1)), esc)
  {
    if !Isset(o) then Some(Unset)
    else if o.value.Arr? && |o.value.entries| > 0 then Some(Slides(SanitizeSlides(o.value.entries, esc)))
    else None
  }

  /** The loop re-reads each slide as `$name_prefix['builtin']['slides'][$key]`.
      A PHP array never repeats a key, so that read gives the entry the loop
      is at, which is the value `SanitizeSlides` sanitizes. */
  lemma SlideReadByKey(es: seq<(string, Value)>, i: int, esc: Escaping)
    requires Distinct(Keys(es))
    requires 0 <= i < |es|
    ensures At(Some(Arr(es)), es[i].0) == Some(es[i].1)
    ensures SanitizeSlides(es, esc)[i] == (es[i].0, SanitizeSlide(ReadSlide(At(Some(Arr(es)), es[i].0)), esc))
  {
    FindDistinct(es, i);
    assert Keys(SanitizeSlides(es, esc))[i] == Keys(es)[i];
  }

  // ----- the slider settings -----------------------------------------------

  /** The control and display settings: every checkbox is set exactly when
      posted, and the speeds are the non-negative integers read from the
      posted values. */
  function SanitizeSettings(p: PostedSettings, esc: Escaping): (r: Settings)
    ensures r.slideshow <==> Isset(p.slideshow)
    ensures r.animationLoop <==> Isset(p.animationLoop)
    ensures r.pauseOnHover <==> Isset(p.pauseOnHover)
    ensures r.smoothHeight <==> Isset(p.smoothHeight)
    ensures r.directionNav <==> Isset(p.directionNav)
    ensures r.controlNav <==> Isset(p.controlNav)
    ensures r.caption <==> Isset(p.caption)
    ensures r.backgroundImages <==> Isset(p.backgroundImages)
    ensures r.slideshowSpeed == esc.absint(p.slideshowSpeed)
    ensures r.animationSpeed == esc.absint(p.animationSpeed)
    ensures r.animation == esc.attr(Text(p.animation))
  {
    Settings(
      esc.attr(Text(p.animation)),
      esc.absint(p.slideshowSpeed),
      esc.absint(p.animationSpeed),
      Isset(p.slideshow),
      Isset(p.animationLoop),
      Isset(p.pauseOnHover),
      Isset(p.smoothHeight),
      Isset(p.directionNav),
      Isset(p.controlNav),
      Isset(p.caption),
      Isset(p.backgroundImages))
  }

  // ----- third-party slider ids --------------------------------------------

  /** The id stored for a third-party slider type. */
  function ProviderId(raw: Option<Value>, t: string, esc: Escaping): string {
    esc.plain(Text(Path(raw, [t, "id"])))
  }

  /** The loop over the registered types: one id for each type other than
      builtin and shortcode, in registry order and for no other type, each
      holding that type's posted id with tags and surrounding space removed. */
  function SaveProviderIds(types: seq<(string, string)>, raw: Option<Value>, esc: Escaping): (r: seq<(string, string)>)
    ensures Keys(r) == Registry.ProviderIds(types)
    ensures forall i :: 0 <= i < |r| ==> r[i].1 == ProviderId(raw, r[i].0, esc)
  {
    if |types| == 0 then []
    else
      var t := types[0].0;
      var rest := SaveProviderIds(types[1..], raw, esc);
      if Registry.IsProvider(t) then
        var r := [(t, ProviderId(raw, t, esc))] + rest;
        assert Keys(r) == [t] + Keys(r[1..]);
        r
      else rest
  }

  /** When the type filter only appends third-party types, the stored ids are
      those of the active gated plugins in their fixed order, then the added
      types. */
  lemma StoredProviderIds(raw: Option<Value>, site: Site, esc: Escaping, extras: seq<(string, string)>)
    requires site.typeFilter(Registry.BaseTypes(site)) == Registry.BaseTypes(site) + extras
    requires forall t :: t in Keys(extras) ==> Registry.IsProvider(t)
    ensures Keys(SaveProviderIds(Registry.SlideshowTypes(site), raw, esc)) == Registry.GatedIds(site) + Keys(extras)
  {
    Registry.ProvidersOfTypes(site, extras);
  }

  // ----- the shortcode -----------------------------------------------------

  /** The posted shortcode passes `preg_match( "/(^[\[]).*([\]]$)/", … ) == 1`;
      a missing or integer value reads as a string that cannot start with `[`. */
  predicate ShortcodeSubmitted(o: Option<Value>) {
    o.Some? && o.value.Str? && Shortcode.Matches(o.value.s)
  }

  /** The shortcode guard: a shortcode is stored exactly when the posted value
      is a string the pattern accepts, and it is then stored verbatim; so a
      stored shortcode starts with `[` and ends with `]`, possibly followed by
      one line feed. */
  function SavedShortcode(o: Option<Value>): (r: Option<string>)
    ensures r.Some? <==> ShortcodeSubmitted(o)
    ensures r.Some? ==> o == Some(Str(r.value))
    ensures r.Some? ==>
              && |r.value| >= 2 && r.value[0] == '['
              && (r.value[|r.value| - 1] == ']' || (r.value[|r.value| - 2] == ']' && r.value[|r.value| - 1] == '\n'))
  {
    if ShortcodeSubmitted(o) then
      Shortcode.Bracketed(o.value.s);
      Some(o.value.s)
    else None
  }

  // ----- the whole slideshow -----------------------------------------------

  /** The builtin part of the saved slideshow, stated on the posted array: the
      '' slide marker exactly when no slides were posted, no slides at all for
      an empty or non-array value, and otherwise one slide per posted key in
      posted order; each checkbox setting set exactly when posted, and the
      speeds read as non-negative integers. */
  function SavedBuiltin(raw: Option<Value>, esc: Escaping): (b: Builtin)
    ensures var o := Path(raw, ["builtin", "slides"]);
      && (b.slides == Some(Unset) <==> !Isset(o))
      && (b.slides.None? <==> Isset(o) && !(o.value.Arr? && |o.value.entries| > 0))
      && (o.Some? && o.value.Arr? && |o.value.entries| > 0 ==>
            && b.slides.Some? && b.slides.value.Slides?
            && Keys(b.slides.value.entries) == Keys(o.value.entries)
            && forall i :: 0 <= i < |o.value.entries| ==>
                 b.slides.value.entries[i].1 == SanitizeSlide(ReadSlide(Some(o.value.entries[i].1)), esc))
    ensures var st := Path(raw, ["builtin", "settings"]); var s := b.settings;
      && (s.slideshow <==> Isset(At(st, "slideshow")))
      && (s.animationLoop <==> Isset(At(st, "animationLoop")))
      && (s.pauseOnHover <==> Isset(At(st, "pauseOnHover")))
      && (s.smoothHeight <==> Isset(At(st, "smoothHeight")))
      && (s.directionNav <==> Isset(At(st, "directionNav")))
      && (s.controlNav <==> Isset(At(st, "controlNav")))
      && (s.caption <==> Isset(At(st, "caption")))
      && (s.backgroundImages <==> Isset(At(st, "background_images")))
      && s.slideshowSpeed == esc.absint(At(st, "slideshowSpeed"))
      && s.animationSpeed == esc.absint(At(st, "animationSpeed"))
      && s.animation == esc.attr(Text(At(st, "animation")))
  {
    Builtin(
      SavedSlides(Path(raw, ["builtin", "slides"]), esc),
      SanitizeSettings(ReadSettings(Path(raw, ["builtin", "settings"])), esc))
  }

  /** `save_slideshow_content( $name_prefix, … )`, stated on the posted array:
      the builtin part as above, an id for exactly the registered types other
      than builtin and shortcode, each read from that type's posted id, and the
      shortcode only when it passed the guard, verbatim and bracketed. */
  function Save(raw: Option<Value>, site: Site, esc: Escaping): (r: Slideshow)
    ensures r.slideshowType == esc.attr(Text(At(raw, "slideshow_type")))
    ensures r.builtin == SavedBuiltin(raw, esc)
    ensures Keys(r.providers) == Registry.ProviderIds(Registry.SlideshowTypes(site))
    ensures forall i :: 0 <= i < |r.providers| ==> r.providers[i].1 == ProviderId(raw, r.providers[i].0, esc)
    ensures r.shortcode.Some? <==> ShortcodeSubmitted(At(raw, "shortcode"))
    ensures r.shortcode.Some? ==>
              && At(raw, "shortcode") == Some(Str(r.shortcode.value))
              && |r.shortcode.value| >= 2 && r.shortcode.value[0] == '['
  {
    Slideshow(
      esc.attr(Text(At(raw, "slideshow_type"))),
      SavedBuiltin(raw, esc),
      SaveProviderIds(Registry.SlideshowTypes(site), raw, esc),
      SavedShortcode(At(raw, "shortcode")))
  }
}

=== FILE: shortcode.dfy ===
/**
 * The guard the sanitizer puts on a submitted shortcode: the PCRE pattern
 * `/(^[\[]).*([\]]$)/` with no modifiers.  Without modifiers `^` matches
 * only at the start of the subject, `.` matches any character except a line
 * feed, and `$` matches at the very end or just before one final line feed.
 */
module Shortcode {

  /** The string holds no line feed. */
  predicate NoLineFeed(s: string) {
    forall i :: 0 <= i < |s| ==> s[i] != '\n'
  }

  /** A match whose `]` sits at index j: the `.*` between covers s[1..j] and
      `$` holds right after the `]`. */
  predicate ClosesAt(s: string, j: int) {
    && 1 <= j < |s|
    && s[j] == ']'
    && NoLineFeed(s[1..j])
    && (j == |s| - 1 || (j == |s| - 2 && s[|s| - 1] == '\n'))
  }

  /** `preg_match( "/(^[\[]).*([\]]$)/", s ) == 1`. */
  predicate Matches(s: string) {
    |s| > 0 && s[0] == '[' && exists j | 1 <= j < |s| :: ClosesAt(s, j)
  }

  /** The pattern as a backtracking matcher runs it: `.*` first takes every
      character up to the first line feed, then gives them back one at a time
      until `]` followed by the end anchor fits. */
  method Match(s: string) returns (m: bool)
    ensures m <==> Matches(s)
  {
    if |s| == 0 || s[0] != '[' {
      return false;
    }
    var e := 1;
    while e < |s| && s[e] != '\n'
      invariant 1 <= e <= |s|
      invariant NoLineFeed(s[1..e])
    {
      assert s[1..e + 1] == s[1..e] + [s[e]];
      e := e + 1;
    }
    var p := e;
    while p > 0
      invariant 0 <= p <= e
      invariant forall j :: p < j <= e ==> !ClosesAt(s, j)
    {
      if p < |s| && s[p] == ']' && (p + 1 == |s| || (p + 2 == |s| && s[p + 1] == '\n')) {
        assert s[1..p] == s[1..e][..p - 1];
        assert ClosesAt(s, p);
        return true;
      }
      p := p - 1;
    }
    forall j | e < j < |s|
      ensures !ClosesAt(s, j)
    {
      assert s[1..j][e - 1] == s[e] == '\n';
    }
    return false;
  }

  /** On a single line the guard accepts exactly the strings that start with
      `[` and end with `]`, so at least two characters long. */
  lemma {:induction false} SingleLine(s: string)
    requires NoLineFeed(s)
    ensures Matches(s) <==> |s| >= 2 && s[0] == '[' && s[|s| - 1] == ']'
  {
    if |s| >= 2 && s[0] == '[' && s[|s| - 1] == ']' {
      assert ClosesAt(s, |s| - 1);
    }
    if Matches(s) {
      var j :| 1 <= j < |s| && ClosesAt(s, j);
      assert j == |s| - 1;
    }
  }

  /** One final line feed after a single-line shortcode does not change the
      verdict, as `$` matches just before it. */
  lemma {:induction false} FinalLineFeed(s: string)
    requires NoLineFeed(s)
    ensures Matches(s + "\n") <==> Matches(s)
  {
    var t := s + "\n";
    if Matches(s) {
      var j :| 1 <= j < |s| && ClosesAt(s, j);
      assert j == |s| - 1;
      assert t[1..j] == s[1..j];
      assert ClosesAt(t, j);
    }
    if Matches(t) {
      var j :| 1 <= j < |t| && ClosesAt(t, j);
      assert j != |t| - 1 by { assert t[|t| - 1] == '\n'; }
      assert j == |s| - 1;
      assert t[1..j] == s[1..j];
      assert ClosesAt(s, j);
    }
  }

  /** Whatever passes the guard starts with `[` and ends with `]`, possibly
      followed by one line feed. */
  lemma Bracketed(s: string)
    requires Matches(s)
    ensures |s| >= 2 && s[0] == '['
    ensures s[|s| - 1] == ']' || (|s| >= 3 && s[|s| - 2] == ']' && s[|s| - 1] == '\n')
  {
    var j :| 1 <= j < |s| && ClosesAt(s, j);
  }
}

=== FILE: slick.dfy ===
/**
 * The builtin slideshow as the slick renderer prints it
 * (`print_slideshow_builtin_slick` and `print_slideshow_js`): either the
 * "no slides" notice, or a container holding the visible slides in stored
 * order followed by the slider's initialisation parameters.
 */
module Slick {
  import opened Php
  import opened Host
  import opened Stored
  import opened View

  /** The image of a slide: a background-image source or an `<img>` tag. */
  datatype Picture = Background(src: string) | Tag(html: string)

  /** One printed slide. */
  datatype SlideView = SlideView(
    key: string, slideType: string, classes: string,
    picture: Picture, link: Option<LinkView>, caption: Option<string>)

  /** The options passed to `.slick( … )`. */
  datatype Params = Params(
    adaptiveHeight: bool, autoplay: bool, autoplaySpeed: Speed,
    arrows: bool, dots: bool, fade: bool, infinite: bool,
    pauseOnHover: bool, speed: Speed)

  datatype Render = NoSlidesNotice | Slider(slides: seq<SlideView>, params: Params)

  /** `print_slideshow_js`: the stored "disable arrows" and "disable dots"
      checkboxes are inverted, the other checkboxes are passed through, and a
      zero speed falls back to 7000 ms between slides and 600 ms per
      transition. */
  function ParamsOf(s: Settings, esc: Escaping): (p: Params)
    ensures p.arrows <==> !s.directionNav
    ensures p.dots <==> !s.controlNav
    ensures p.fade <==> s.animation == "fade"
    ensures p.infinite == s.animationLoop && p.autoplay == s.slideshow
    ensures p.pauseOnHover == s.pauseOnHover && p.adaptiveHeight == s.smoothHeight
    ensures p.autoplaySpeed.Fallback? <==> s.slideshowSpeed == 0
    ensures p.autoplaySpeed.Fallback? ==> p.autoplaySpeed.ms == 7000
    ensures p.speed.Fallback? <==> s.animationSpeed == 0
    ensures p.speed.Fallback? ==> p.speed.ms == 600
  {
    Params(
      s.smoothHeight,
      s.slideshow,
      SpeedOf(s.slideshowSpeed, 7000, esc),
      !s.directionNav,
      !s.controlNav,
      s.animation == "fade",
      s.animationLoop,
      s.pauseOnHover,
      SpeedOf(s.animationSpeed, 600, esc))
  }

  /** `! $disabled` where `$disabled` is the escaped stored flag or 0: a
      disabled slide is hidden unless escaping turns "1" into a false string. */
  predicate Visible(s: Slide, esc: Escaping) {
    !s.disable || Falsy(esc.attr("1"))
  }

  /** The image of a slide: in background mode only the source of the chosen
      rendition; otherwise the attachment's tag with the stored title and alt.
      An empty size means the full rendition. */
  function PictureOf(img: Image, background: bool, esc: Escaping, media: Media): (p: Picture)
    ensures p.Background? <==> background
    ensures p.Background? ==> p.src == media.src(esc.attr(img.id), AttrOr(img.size, "full", esc))
    ensures p.Tag? ==> p.html == media.tag(esc.attr(img.id), AttrOr(img.size, "full", esc),
                                           AttrOr(img.title, "", esc), AttrOr(img.alt, "", esc))
  {
    var id := esc.attr(img.id);
    var size := AttrOr(img.size, "full", esc);
    if background then Background(media.src(id, size))
    else Tag(media.tag(id, size, AttrOr(img.title, "", esc), AttrOr(img.alt, "", esc)))
  }

  /** The markup of one slide under its stored key. */
  function ViewOf(key: string, s: Slide, settings: Settings, esc: Escaping, media: Media): (v: SlideView)
    ensures v.key == key && v.slideType == s.slideType && v.classes == s.image.classes
    ensures v.link == LinkOf(s.image.link)
    ensures v.caption == CaptionOf(settings.caption, s.image.caption, esc)
    ensures v.picture.Background? <==> settings.backgroundImages
    ensures v.picture == PictureOf(s.image, settings.backgroundImages, esc, media)
  {
    SlideView(key, s.slideType, s.image.classes,
              PictureOf(s.image, settings.backgroundImages, esc, media),
              LinkOf(s.image.link),
              CaptionOf(settings.caption, s.image.caption, esc))
  }

  /** `v` is the markup of some visible slide of `es`, under its key. */
  predicate FromVisible(v: SlideView, es: seq<(string, Slide)>, settings: Settings, esc: Escaping, media: Media) {
    exists i :: 0 <= i < |es| && Visible(es[i].1, esc) && v == ViewOf(es[i].0, es[i].1, settings, esc, media)
  }

  /** The loop over the stored slides: the visible ones, in stored order. */
  function Shown(es: seq<(string, Slide)>, settings: Settings, esc: Escaping, media: Media): (r: seq<SlideView>)
    ensures |r| <= |es|
  {
    if |es| == 0 then []
    else
      (if Visible(es[0].1, esc) then [ViewOf(es[0].0, es[0].1, settings, esc, media)] else [])
      + Shown(es[1..], settings, esc, media)
  }

  /** `print_slideshow_builtin_slick`: the notice exactly when the stored slide
      collection is empty; otherwise the visible slides and the parameters. */
  function RenderOf(b: Builtin, esc: Escaping, media: Media): (r: Render)
    ensures r.NoSlidesNotice? <==> NoSlides(b.slides)
    ensures r.Slider? ==> b.slides.Some? && b.slides.value.Slides?
    ensures r.Slider? ==> r.slides == Shown(b.slides.value.entries, b.settings, esc, media)
    ensures r.Slider? ==> r.params == ParamsOf(b.settings, esc)
  {
    if NoSlides(b.slides) then NoSlidesNotice
    else Slider(Shown(b.slides.value.entries, b.settings, esc, media), ParamsOf(b.settings, esc))
  }

  /** Showing a concatenation shows each part in turn, so the loop keeps the
      stored order. */
  lemma {:induction false} ShownAppend(a: seq<(string, Slide)>, b: seq<(string, Slide)>,
                                       settings: Settings, esc: Escaping, media: Media)
    ensures Shown(a + b, settings, esc, media) == Shown(a, settings, esc, media) + Shown(b, settings, esc, media)
  {
    if |a| == 0 {
      assert a + b == b;
    } else {
      assert (a + b)[1..] == a[1..] + b;
      ShownAppend(a[1..], b, settings, esc, media);
    }
  }

  /** Every printed slide is the markup of a visible stored slide, under that
      slide's key: the loop prints nothing it was not given. */
  lemma {:induction false} ShownFromVisible(es: seq<(string, Slide)>, settings: Settings, esc: Escaping, media: Media)
    ensures forall j :: 0 <= j < |Shown(es, settings, esc, media)| ==>
              FromVisible(Shown(es, settings, esc, media)[j], es, settings, esc, media)
  {
    if |es| > 0 {
      var h := if Visible(es[0].1, esc) then [ViewOf(es[0].0, es[0].1, settings, esc, media)] else [];
      var rest := Shown(es[1..], settings, esc, media);
      ShownFromVisible(es[1..], settings, esc, media);
      forall j | 0 <= j < |h + rest|
        ensures FromVisible((h + rest)[j], es, settings, esc, media)
      {
        if j < |h| {
          assert (h + rest)[j] == ViewOf(es[0].0, es[0].1, settings, esc, media);
        } else {
          assert FromVisible(rest[j - |h|], es[1..], settings, esc, media);
          var k :| 0 <= k < |es[1..]| && Visible(es[1..][k].1, esc)
                   && rest[j - |h|] == ViewOf(es[1..][k].0, es[1..][k].1, settings, esc, media);
          assert es[1..][k] == es[k + 1];
        }
      }
    }
  }

  /** When no slide is disabled, every stored slide is printed, one for one. */
  lemma {:induction false} AllShown(es: seq<(string, Slide)>, settings: Settings, esc: Escaping, media: Media)
    requires forall i :: 0 <= i < |es| ==> !es[i].1.disable
    ensures |Shown(es, settings, esc, media)| == |es|
    ensures forall i :: 0 <= i < |es| ==>
              Shown(es, settings, esc, media)[i] == ViewOf(es[i].0, es[i].1, settings, esc, media)
  {
    if |es| > 0 {
      AllShown(es[1..], settings, esc, media);
    }
  }

  /** When every stored slide is disabled, nothing is printed from them. */
  lemma {:induction false} NoneShown(es: seq<(string, Slide)>, settings: Settings, esc: Escaping, media: Media)
    requires esc.attr("1") == "1"
    requires forall i :: 0 <= i < |es| ==> es[i].1.disable
    ensures Shown(es, settings, esc, media) == []
  {
    if |es| > 0 {
      NoneShown(es[1..], settings, esc, media);
    }
  }

  /** The notice depends on the stored collection, not on what is visible: a
      block whose slides are all disabled prints an empty container and still
      initialises the slider. */
  lemma AllDisabledStillInitialised(b: Builtin, esc: Escaping, media: Media)
    requires esc.attr("1") == "1"
    requires b.slides.Some? && b.slides.value.Slides? && |b.slides.value.entries| > 0
    requires forall i :: 0 <= i < |b.slides.value.entries| ==> b.slides.value.entries[i].1.disable
    ensures RenderOf(b, esc, media) == Slider([], ParamsOf(b.settings, esc))
  {
    NoneShown(b.slides.value.entries, b.settings, esc, media);
  }

  /** The renderer as a loop that appends each visible slide's markup. */
  method Print(b: Builtin, esc: Escaping, media: Media) returns (r: Render)
    ensures r.NoSlidesNotice? <==> NoSlides(b.slides)
    ensures r == RenderOf(b, esc, media)
  {
    if NoSlides(b.slides) {
      return NoSlidesNotice;
    }
    var es := b.slides.value.entries;
    var html: seq<SlideView> := [];
    var i := 0;
    while i < |es|
      invariant 0 <= i <= |es|
      invariant html == Shown(es[..i], b.settings, esc, media)
    {
      var key := es[i].0;
      var slide := es[i].1;
      var disabled := if slide.disable then esc.attr("1") else "";
      ShownAppend(es[..i], [es[i]], b.settings, esc, media);
      assert es[..i + 1] == es[..i] + [es[i]];
      assert Shown([es[i]], b.settings, esc, media)
          == if Visible(slide, esc) then [ViewOf(key, slide, b.settings, esc, media)] else [];
      if Falsy(disabled) {
        html := html + [ViewOf(key, slide, b.settings, esc, media)];
      }
      i := i + 1;
    }
    assert es[..i] == es;
    r := Slider(html, ParamsOf(b.settings, esc));
  }
}

=== FILE: stored.dfy ===
/**
 * The slideshow settings as the sanitizer stores them for a block
 * (`$content_data['slideshow']`).  Each record field is one key of the
 * stored PHP array; a checkbox is stored as 1 or 0 and is a `bool` here.
 * The admin form and the front-end renderers read these records.
 */
module Stored {
  import opened Php

  /** `['image']['link']`. */
  datatype Link = Link(enable: bool, url: string, title: string, target: bool)

  /** `['image']`. */
  datatype Image = Image(
    id: string, url: string, title: string, alt: string, size: string,
    link: Link, caption: string, classes: string)

  /** One stored slide. */
  datatype Slide = Slide(slideType: string, disable: bool, image: Image)

  /** `['builtin']['slides']`: the '' written when no slides were posted, or
      the slides under their posted keys, in posted order. */
  datatype SlideList = Unset | Slides(entries: seq<(string, Slide)>)

  /** `['builtin']['settings']`. */
  datatype Settings = Settings(
    animation: string,
    slideshowSpeed: nat,
    animationSpeed: nat,
    slideshow: bool,
    animationLoop: bool,
    pauseOnHover: bool,
    smoothHeight: bool,
    directionNav: bool,
    controlNav: bool,
    caption: bool,
    backgroundImages: bool)

  /** `['builtin']`: the slides key is absent when the posted slide list was
      empty or not an array. */
  datatype Builtin = Builtin(slides: Option<SlideList>, settings: Settings)

  /** The whole stored slideshow: the chosen type, the builtin slider, one
      `[type]['id']` per third-party type in registry order, and the shortcode
      when one passed the guard. */
  datatype Slideshow = Slideshow(
    slideshowType: string,
    builtin: Builtin,
    providers: seq<(string, string)>,
    shortcode: Option<string>)

  /** `empty( $settings['builtin']['slides'] )`. */
  predicate NoSlides(slides: Option<SlideList>) {
    match slides
    case None => true
    case Some(Unset) => true
    case Some(Slides(es)) => |es| == 0
  }

  /** The keys of `['builtin']['settings']` (the autoplay switch is stored
      under "slideshow", the last one under "background_images"). */
  datatype SettingKey =
    | Animation | SlideshowSpeed | AnimationSpeed
    | Autoplay | AnimationLoop | PauseOnHover | SmoothHeight
    | DirectionNav | ControlNav | Caption | BackgroundImages

  /** The site-wide option holding a setting's default. */
  function OptionName(k: SettingKey): string {
    match k
    case Animation => "builtin_slideshow_animation"
    case SlideshowSpeed => "builtin_slideshow_slideshowSpeed"
    case AnimationSpeed => "builtin_slideshow_animationSpeed"
    case Autoplay => "builtin_slideshow_slideshow"
    case AnimationLoop => "builtin_slideshow_animationLoop"
    case PauseOnHover => "builtin_slideshow_pauseOnHover"
    case SmoothHeight => "builtin_slideshow_smoothHeight"
    case DirectionNav => "builtin_slideshow_directionNav"
    case ControlNav => "builtin_slideshow_controlNav"
    case Caption => "builtin_slideshow_caption"
    case BackgroundImages => "builtin_slideshow_background_images"
  }

  /** The PHP value a setting is stored as. */
  function SettingValue(s: Settings, k: SettingKey): Value {
    match k
    case Animation => Str(s.animation)
    case SlideshowSpeed => Int(s.slideshowSpeed)
    case AnimationSpeed => Int(s.animationSpeed)
    case Autoplay => Flag(s.slideshow)
    case AnimationLoop => Flag(s.animationLoop)
    case PauseOnHover => Flag(s.pauseOnHover)
    case SmoothHeight => Flag(s.smoothHeight)
    case DirectionNav => Flag(s.directionNav)
    case ControlNav => Flag(s.controlNav)
    case Caption => Flag(s.caption)
    case BackgroundImages => Flag(s.backgroundImages)
  }
}

=== FILE: view.dfy ===
/**
 * The pieces of a rendered slide that both builtin renderers (slick and the
 * older flexslider) compute the same way from a stored slide: the link
 * wrapper, the caption and the speed given to the slider script.
 */
module View {
  import opened Php
  import opened Host
  import opened Stored

  /** The `<a href target title>` wrapped around a slide. */
  datatype LinkView = LinkView(href: string, target: string, title: string)

  /** A speed handed to the slider script: the stored value, escaped, or the
      renderer's default in milliseconds. */
  datatype Speed = Given(text: string) | Fallback(ms: nat)

  /** A slide is wrapped in a link exactly when its stored URL is non-empty and
      its link is enabled; the link opens a new window exactly when the target
      checkbox was set, and the stored URL and title are used unescaped. */
  function LinkOf(l: Link): (r: Option<LinkView>)
    ensures r.Some? <==> !Falsy(l.url) && l.enable
    ensures r.Some? ==> r.value.href == l.url && r.value.title == l.title
    ensures r.Some? ==> (r.value.target == "_blank" <==> l.target)
    ensures r.Some? ==> r.value.target in {"_blank", "_self"}
  {
    if !Falsy(l.url) && l.enable then
      Some(LinkView(l.url, if l.target then "_blank" else "_self", l.title))
    else None
  }

  /** A caption is shown exactly when the block does not disable captions and
      the slide's caption is non-empty; it is shown through the post filter. */
  function CaptionOf(disabled: bool, caption: string, esc: Escaping): (r: Option<string>)
    ensures r.Some? <==> !disabled && !Falsy(caption)
    ensures r.Some? ==> r.value == esc.post(caption)
  {
    if !disabled && !Falsy(caption) then Some(esc.post(caption)) else None
  }

  /** A stored speed of 0 gives way to the default; any other is escaped. */
  function SpeedOf(n: nat, fallback: nat, esc: Escaping): (r: Speed)
    ensures r.Fallback? <==> n == 0
    ensures r.Fallback? ==> r.ms == fallback
    ensures r.Given? ==> r.text == esc.attr(Decimal(n))
  {
    if n != 0 then Given(esc.attr(Decimal(n))) else Fallback(fallback)
  }

  /** `! empty( $v ) ? esc_attr( $v ) : $default` on a stored string. */
  function AttrOr(s: string, default: string, esc: Escaping): (r: string)
    ensures Falsy(s) ==> r == default
    ensures !Falsy(s) ==> r == esc.attr(s)
  {
    if !Falsy(s) then esc.attr(s) else default
  }
}
